=== FILE: README.md ===
# AutoRentPro booking engine in Dafny

This project models the booking core of the AutoRentPro car-rental application. It covers how a
rental request is admitted, priced and checked against the car's other bookings. It also covers
how a booking's status drives its car's status, how car and review ratings are aggregated, and
how cars are searched.

The model is a set of pure functions over immutable records:

- Timestamps are whole milliseconds read in UTC (module `Time`).
- Money and ratings are exact reals (module `Money`).
- JavaScript's `Math.round` is written out as round-half-up: `(x + 0.5).Floor`.
- The database collections are in-memory values. The booking and review modules look cars up in
  a `map` from id to car; the search scans the cars as a sequence in store order. Bookings and
  reviews are sequences in store order.
- A request field the source destructures with a default is an `Option`, and the default is
  stated: an absent insurance fee is 0, an absent page is 1, an absent limit is 12.

Modules follow the source files:

| module | source |
|---|---|
| `CarModel` | `models/Car.js` |
| `BookingModel` | `models/Booking.js` |
| `ReviewModel` | `models/Review.js` |
| `Pricing`, `BookingValidation` | `middleware/bookingValidation.js` (the price arithmetic is shared by the middleware and the price endpoint) |
| `BookingController` | `controllers/bookingController.js` |
| `Search` | `controllers/searchController.js` |
| `Wrappers`, `Time`, `Money`, `Intervals`, `Seqs` | shared helpers |

Two status vocabularies exist, and they are kept apart:

- `BookingModel.BookingStatus` is the schema's enumeration:
  PAYMENT_PENDING, CONFIRMED, IN_PROGRESS, COMPLETED, CANCELLED.
- `BookingController.AdminStatus` is the set of strings the admin controller writes and tests:
  PENDING, CONFIRMED_UNPAID, CONFIRMED_PAID, COMPLETED, CANCELLED, plus any other string.

The conflict rule is the half-open overlap `s1 < e2 && s2 < e1` (`Intervals.Overlaps`). Both
conflict detectors of the source are related to it:

- `Booking.isCarAvailable` uses three query clauses. For non-empty periods they are equivalent
  to the overlap rule.
- The controller's `isOverlap` is the overlap rule itself.

Notes on the code as written:

- `validateBooking` runs the date rules, then the car checks, then the price, then the per-user
  abuse guard. The abuse guard is last, not before the car checks.
- Among the date rules, the 90-day advance cap is checked before the 30-day duration cap.
- `updateBookingStatus` enforces no transition table. Any status can be written, including
  reopening a cancelled booking (`BookingController.ReopeningCancelledCanDoubleBook`).
- `createBooking` hands `Booking.create` the status string `PENDING`, which is not in the schema
  enumeration, and leaves the schema's required locations, base price and deposit unset. The
  schema refuses such a document (see "## Findings"). `BookingController.CreateBooking` is the
  controller's logic with the document accepted; `BookingController.CreateBookingAsWritten`
  adds the refusal.
- A booking confirmed through the admin controller (CONFIRMED_PAID / CONFIRMED_UNPAID) is never
  matched by `isCarAvailable`, which only looks at CONFIRMED and IN_PROGRESS. The car status
  RENTED set alongside it is what keeps the middleware from admitting a second booking.

## Model

| member | source | states |
|---|---|---|
| `Time.CeilDays` | middleware/bookingValidation.js:43-44 | the day count is the least whole number of days covering the milliseconds |
| `Money.Round` | middleware/bookingValidation.js:192-195 | `Math.round` lands within half a unit of its argument, and halves go up |
| `Money.Round1` | models/Car.js:148 | the rating setter moves a value by at most 0.05 and leaves a whole number of tenths |
| `Money.Round1Idempotent` | models/Car.js:148 | a value already rounded to one decimal is left alone by the setter |
| `CarModel.WithDefaults` | models/Car.js:30-153 | every supplied field is stored as given; each absent one takes its schema default: ECONOMY, MANUAL, PETROL, 5 seats, no features, 200 km per day, 5000 per extra km, deposit 3 × daily rate, AVAILABLE, active; no rating yet |
| `CarModel.FullDraftStoredAsGiven` | models/Car.js:30-153 | creating a car from every field of an unrated car gives that car back |
| `CarModel.IsAvailable` | models/Car.js:175-177 | a car is bookable iff its status is AVAILABLE and it is active |
| `CarModel.FreshCarIsBookable` | models/Car.js:175-177 | a car created with only a non-negative rate passes the validators, has deposit 3 × rate and is `isAvailable` (AVAILABLE and active) |
| `CarModel.RunningAverage` | models/Car.js:185-187 | the new mean times the new count equals the old sum plus the new rating |
| `CarModel.UpdateRating` | models/Car.js:184-189 | one more review, the average becomes the running average rounded to one decimal by the setter, nothing else changes |
| `CarModel.RunningAverageWithin` | models/Car.js:184-189 | an old average and a new rating in [0, 5] give a running average in [0, 5] |
| `CarModel.UpdateRatingKeepsRange` | models/Car.js:143-149 | the stored average stays within the schema's [0, 5] after an update and the setter's rounding |
| `BookingModel.DurationDaysOf` | models/Booking.js:168-173 | 0 when a date is missing, otherwise ceil(abs(end − start) / 1 day) |
| `BookingModel.ValidBookingLastsADay` | models/Booking.js:24-29 | a booking whose end is after its start lasts at least one day |
| `BookingModel.CanCancel` | models/Booking.js:179-184 | cancellable iff CONFIRMED and the start is strictly more than 24 hours away |
| `BookingModel.CancellationWindowExamples` | models/Booking.js:179-184 | starts 12 h or exactly 24 h away cannot be cancelled; 48 h away can |
| `BookingModel.CalculateTotalPrice` | models/Booking.js:189-193 | the total is base + insurance + service fee + extra-mileage fee; nothing else changes |
| `BookingModel.CalculateTotalPriceKeepsValid` | models/Booking.js:189-193 | recomputing the total keeps a schema-valid booking valid and never drops the total below the base |
| `BookingModel.CalculateExtraMileageFee` | models/Booking.js:196-205 | fee 0 and booking untouched when a reading is falsy; otherwise the driven distance is recorded; the fee is never negative for a non-negative rate |
| `BookingModel.ExtraMileageFeeCharged` | models/Booking.js:196-205 | only kilometres beyond a flat 200 per booked day are charged, at the given rate, or at 5000 when the rate is absent or 0 |
| `BookingModel.ZeroRateMeansDefault` | models/Booking.js:203 | a zero rate charges exactly what no rate charges, which is what the rate 5000 charges |
| `BookingModel.ValidMileageDrivesForward` | models/Booking.js:56-61 | a booking accepted by the mileage validator records a non-negative distance |
| `BookingModel.NewBooking` | models/Booking.js:79-138 | the given ids, dates and prices are stored; status PAYMENT_PENDING, payment PENDING, insurance 0 and service fee `Math.round(basePrice × 0.1)` unless given; no mileage, no actual dates, not cancelled |
| `BookingModel.NewBookingIsInert` | models/Booking.js:175-210 | a new booking does not hold its car and cannot be cancelled or completed |
| `BookingModel.IsActive` | models/Booking.js:175-177 | a booking is active iff CONFIRMED or IN_PROGRESS |
| `BookingModel.CanComplete` | models/Booking.js:208-210 | completable iff IN_PROGRESS with an actual end date; a completable booking is active and cannot be cancelled at any time |
| `BookingModel.ActiveIffBlocking` | models/Booking.js:175-226 | a booking over a non-empty period blocks its own car on its own dates iff it is active |
| `BookingModel.StatusOf` | models/Booking.js:131-137 | a string is read as a schema status only when some status is stored under that spelling |
| `BookingModel.StatusNameRoundTrip` | models/Booking.js:131-137 | every schema status reads back as itself |
| `BookingModel.PassesValidation` | models/Booking.js:5-137 | a document is accepted iff it sets every required field and its status, when set, is a schema status |
| `BookingModel.SchemaStatusesAccepted` | models/Booking.js:131-137 | a document with every required field and any schema status is accepted |
| `BookingModel.QueryClausesAreOverlap` | models/Booking.js:219-226 | for non-empty periods the three query clauses hold iff the half-open periods overlap |
| `BookingModel.FindConflict` | models/Booking.js:215-233 | finds a booking iff one is the same car, CONFIRMED or IN_PROGRESS, not the excluded id, and meets a clause |
| `BookingModel.IsCarAvailable` | models/Booking.js:215-235 | the car is available iff no stored booking blocks it: same car, active, not the excluded id, meeting a query clause |
| `BookingModel.IsCarAvailableHalfOpen` | models/Booking.js:215-235 | over valid bookings, the car is available iff no other active booking of it overlaps the half-open period |
| `Intervals.AdjacentDoNotOverlap` | controllers/bookingController.js:11-17 | a period starting when another ends does not conflict with it |
| `Pricing.CountWeekendDays` | middleware/bookingValidation.js:168-177 | the day-by-day loop counts the Saturdays and Sundays of the period, at most one per rental day |
| `Pricing.DaysVisitedIsDuration` | middleware/bookingValidation.js:172 | the loop visits exactly ceil((end − start) / 1 day) days |
| `Pricing.WeekendDaysAtMostDuration` | middleware/bookingValidation.js:165-177 | weekend days never exceed the rental days |
| `Pricing.DiscountRate` | middleware/bookingValidation.js:183-188 | the discount rate is between 0 and 15% |
| `Pricing.DiscountTiers` | middleware/bookingValidation.js:182-189 | 15% off from 14 days, else 10% from 7 days, else none, always taken from the surcharged base |
| `Pricing.SurchargeBounded` | middleware/bookingValidation.js:179-180 | the weekend surcharge adds between 0 and 15% of rate × days |
| `Pricing.Quote` | middleware/bookingValidation.js:164-196 | each item is its exact amount rounded half-up: the discounted base, the weekend surcharge (15% of the rate per weekend day), the discount on the surcharged base, the service fee (10% of the discounted base), the insurance, and the total (base + service fee + insurance); the deposit and day count are passed through |
| `Pricing.TotalNearExact` | middleware/bookingValidation.js:191-195 | the total is within one unit of 1.1 × discounted base + insurance |
| `Pricing.TotalNonNegative` | middleware/bookingValidation.js:164-195 | a non-negative rate and insurance never give a negative total |
| `Pricing.WorkedExample` | middleware/bookingValidation.js:164-195 | 500000 per day from Wed 2025-01-01 to 2025-01-05: 4 days, surcharge 75000, base 2075000, fee 207500, total 2282500 |
| `BookingValidation.ValidateBookingDates` | middleware/bookingValidation.js:18-79 | first failure wins: invalid date, start before today's midnight, end not after start, more than 90 days ahead, more than 30 days long; the "under 1 day" refusal never happens; on success the duration is in [1, 30] |
| `BookingValidation.CheckCarAvailability` | middleware/bookingValidation.js:98-146 | missing car, inactive car, status other than AVAILABLE, conflicting booking, in that order; success returns the stored car |
| `BookingValidation.CalculateAndValidatePrice` | middleware/bookingValidation.js:158-217 | refused iff the client total is truthy and off by more than 1; otherwise the quote for the validated dates |
| `BookingValidation.Tampered` | middleware/bookingValidation.js:199-206 | a client total is refused iff it is present, non-zero and more than 1 away from the server total |
| `BookingValidation.TamperGuardTolerance` | middleware/bookingValidation.js:199-206 | no total, a zero total, or one within ±1 is accepted; anything further is refused |
| `BookingValidation.ValidateUserBooking` | middleware/bookingValidation.js:231-270 | refused when logged out, then at ≥ 3 unpaid bookings in 30 min, then at ≥ 5 cancellations in 7 days |
| `BookingValidation.AbuseGuardMonotone` | middleware/bookingValidation.js:243-268 | more booking history never turns a refusal into an acceptance |
| `BookingValidation.ThreePendingBlock` | middleware/bookingValidation.js:243-254 | three recent unpaid bookings block the next request |
| `BookingValidation.ValidateBooking` | middleware/bookingValidation.js:282-287 | date errors first; a car error iff the dates pass and the car step fails; a price error iff dates and car pass and the price step fails; a user error iff all three pass and the user step fails; admitted iff all four pass; an admitted request carries the validated dates, the stored car, the price step's quote and the user; a price refusal carries the price step's error |
| `BookingValidation.AdmissionSound` | middleware/bookingValidation.js:282-287 | an admitted request names a bookable car with no overlapping active booking, lasts 1–30 days, starts within 90 days and is priced by the quote; its dates are the requested start and end and its user is the requester |
| `BookingValidation.QuickAvailabilityCheck` | middleware/bookingValidation.js:290-338 | available iff all parameters are given, the start is not before today, the end is after the start, the car is bookable and nothing conflicts |
| `BookingValidation.QuickCheckMatchesMiddleware` | middleware/bookingValidation.js:306-324 | the quick check agrees with the middleware's first three date rules and its car step |
| `BookingValidation.CalculatePrice` | middleware/bookingValidation.js:341-396 | not found iff the car is missing; otherwise the quote for the two dates in either order, billed as the least whole number of days covering abs(end − start), with the car's deposit; an absent insurance fee is 0 |
| `BookingValidation.EndpointMatchesMiddleware` | middleware/bookingValidation.js:353-381 | for dates the middleware accepts, the endpoint returns the middleware's breakdown |
| `BookingValidation.CalculatePriceReversedDates` | middleware/bookingValidation.js:353-381 | reversed dates bill as many days as the ordered pair, at least one, with no weekend surcharge |
| `BookingValidation.CalculatePriceSameDay` | middleware/bookingValidation.js:353-381 | equal dates bill 0 days: base 0, fee 0, total the rounded insurance, so 0 when no insurance fee is given |
| `BookingValidation.InsuranceFeeOf` | middleware/bookingValidation.js:162 | the middleware reads an absent insurance fee as 0 and a given one as given |
| `BookingController.ParseStatus` | controllers/bookingController.js:37-41 | a status string reads back as itself; it becomes `Other` iff it is not one of the five known spellings |
| `BookingController.StatusRoundTrip` | controllers/bookingController.js:37-41 | writing then reading any status gives it back (`Other` never carries a known spelling) |
| `BookingController.CalculateCost` | controllers/bookingController.js:6-9 | the cost is the daily rate times the least whole number of days covering the period |
| `BookingController.CalculateCostUsesDuration` | controllers/bookingController.js:6-9 | for end after start this is the schema's `durationDays` × rate, at least one day |
| `BookingController.IsOverlap` | controllers/bookingController.js:11-17 | true iff some listed booking overlaps the half-open period |
| `BookingController.IsOverlapBoundaries` | controllers/bookingController.js:11-17 | an empty list gives false; back-to-back periods do not conflict |
| `BookingController.CarBookingsOverlap` | controllers/bookingController.js:92-97 | checking the filtered list equals checking every non-cancelled booking of the car |
| `BookingController.CreateBooking` | controllers/bookingController.js:86-105 | refused iff end ≤ start; then iff the car is missing; then iff a non-cancelled booking of the car overlaps; accepted iff none of these, appending a PENDING booking costed by `calculateCost` and keeping the store before it |
| `BookingController.CreateBookingAsWritten` | controllers/bookingController.js:103-105 | the same refusals, then a validation failure whenever the controller's document fails the schema |
| `BookingController.CreateBookingAsWrittenNeverStores` | controllers/bookingController.js:103-105 | the document lacks `pickupLocation` and its status `PENDING` is no schema status, so every request is refused, with a validation failure exactly when the checks pass |
| `BookingController.CreateBookingPreservesSchedule` | controllers/bookingController.js:86-105 | creation keeps non-cancelled bookings of each car pairwise non-overlapping |
| `BookingController.FindIndex` | controllers/bookingController.js:187-188 | no index iff no booking has the id; otherwise the first booking with that id |
| `BookingController.SetCarStatus` | controllers/bookingController.js:132-140 | only the named car's status changes; a missing car is left alone |
| `BookingController.CarStatusFor` | controllers/bookingController.js:129-141 | confirmed statuses rent the car; PENDING, COMPLETED and CANCELLED free it; anything else changes nothing |
| `BookingController.UpdateBookingStatus` | controllers/bookingController.js:114-147 | the booking takes any status; its car follows `CarStatusFor`; other bookings and cars are unchanged |
| `BookingController.UpdateBookingStatusIdempotent` | controllers/bookingController.js:120-141 | writing the same status twice equals writing it once, for bookings and cars |
| `BookingController.ReopeningCancelledCanDoubleBook` | controllers/bookingController.js:120-141 | with no transition table, reopening a cancelled booking can leave two overlapping active bookings of one car |
| `BookingController.UpdateBooking` | controllers/bookingController.js:186-230 | refused iff the booking is missing; then iff end ≤ start; then iff the new car is missing; then iff another non-cancelled booking of the new car overlaps; accepted otherwise, rewriting the booking with its status kept; a confirmed booking moved to another car frees the old car and rents the new one, else cars are unchanged |
| `BookingController.UpdateBookingPreservesSchedule` | controllers/bookingController.js:204-230 | edits keep the no-double-booking invariant and unique ids |
| `BookingController.RowFlags` | controllers/bookingController.js:43-46 | delete iff CANCELLED; edit iff PENDING or CONFIRMED_UNPAID; delete excludes status change; edit implies status change |
| `ReviewModel.AverageRating` | models/Review.js:97-102 | the overall rating when no sub-rating is given, otherwise the mean of overall and given sub-ratings rounded half-up to one decimal |
| `ReviewModel.AverageRatingWithin` | models/Review.js:97-102 | ratings in 1..5 give a review average in 1..5 |
| `ReviewModel.CanEdit` | models/Review.js:104-108 | editable iff never edited and at most 7 days old |
| `ReviewModel.MarkAsEdited` | models/Review.js:111-114 | sets the edited flag and time, nothing else |
| `ReviewModel.EditedReviewIsFinal` | models/Review.js:104-114 | after `markAsEdited` the review can never be edited again |
| `ReviewModel.RecomputeCarRating` | models/Review.js:123-128 | the count is the number of non-hidden reviews of the car and the average is their mean overall rating rounded to one decimal; none visible is an error |
| `ReviewModel.RecomputeWithin` | models/Review.js:125-128 | with at least one visible review and every overall rating in 1..5, the recompute succeeds and the car average is in 1..5 |
| `ReviewModel.PreSaveHookAsWritten` | models/Review.js:117-132 | runs only for a changed rating of an existing review of a stored car, recomputing from the reviews as stored; fails iff that recompute fails; every other car is unchanged |
| `ReviewModel.PreSaveHook` | models/Review.js:117-132 | the same hook recomputing from the stored reviews with the edited one in place; fails iff that recompute fails; every other car is unchanged |
| `ReviewModel.PreSaveHookSeesEdit` | models/Review.js:119-128 | the intended hook averages the edited review's new rating and no stale copy |
| `ReviewModel.StaleRatingCounterexample` | models/Review.js:119-129 | one review edited from 2 to 5 leaves the car at 2 as written, at 5 as intended |
| `Search.ToUpper` | controllers/searchController.js:47-59 | upper-casing keeps length and maps each ASCII lower-case letter to its capital |
| `Search.LowerCaseQueriesMatch` | controllers/searchController.js:47-59 | "suv", "Manual", "diesel" match the stored enumeration names |
| `Search.RequestedFeatures` | controllers/searchController.js:84-87 | a single feature value is a one-element list; a list is taken as given |
| `Search.EmptyQueryListsBookableCars` | controllers/searchController.js:41-44 | with no criterion, the search matches exactly active AVAILABLE cars |
| `Search.MatchesQuery` | controllers/searchController.js:41-87 | a matching car is bookable and within every given seat and price bound |
| `Search.NarrowerMatch` | controllers/searchController.js:41-87 | a car a narrower query accepts is accepted by the wider one |
| `Search.NarrowerQueryFewerMatches` | controllers/searchController.js:41-87 | adding or tightening criteria never increases the number of matches |
| `Search.CeilDiv` | controllers/searchController.js:120 | total pages is the least whole number of pages covering the matches |
| `Search.Paginate` | controllers/searchController.js:119-134 | page counts cover the total; a previous page exists iff page > 1 |
| `Search.HasNextPageMeansMoreCars` | controllers/searchController.js:120-134 | a next page exists iff page × limit < total matches |
| `Search.PageOf` | controllers/searchController.js:90-97 | the page holds the matches from (page − 1) × limit on, min(limit, matches left) of them, none past the end |
| `Search.EveryMatchOnItsPage` | controllers/searchController.js:90-97 | the j-th match is shown on page j / limit + 1 at position j mod limit |
| `Search.FilterAvailable` | controllers/searchController.js:103-116 | the loop keeps exactly the page's cars `isCarAvailable` accepts, in page order |
| `Search.SearchCars` | controllers/searchController.js:41-120 | without dates the cars are the requested page of the matches; with dates they are that page's cars free on the dates; each is active, AVAILABLE and meets every given criterion; the pagination is that of the requested page and limit over all matches (total, page count, next and previous flags); an absent page is 1 and an absent limit 12 |
| `Search.PageNumber` | controllers/searchController.js:35 | an absent page is page 1; a given page is used as given |
| `Search.PageSize` | controllers/searchController.js:36 | an absent limit is 12; a given limit is used as given |
| `Search.DefaultSearchFirstTwelve` | controllers/searchController.js:35-36 | a search without page, limit or dates shows the first twelve matches as page 1, with no previous page |
| `Search.DateFilterOnlyThinsPage` | controllers/searchController.js:103-120 | dates never change the total or page flags; they only drop unavailable cars from the page |
| `Search.SimilarLimit` | controllers/searchController.js:285 | a missing or zero limit means 4; any other limit counts by its magnitude |
| `Search.SimilarCars` | controllers/searchController.js:288-309 | not found iff the reference car is missing; otherwise the first min(limit, similar) cars that are bookable, of the same category, priced within 70–130% and not the reference |
| `Search.SimilarCarsComplete` | controllers/searchController.js:288-309 | when no more cars are similar than the limit, every similar car is recommended |
| `Search.Autocomplete` | controllers/searchController.js:330-345 | a missing or one-character query gives nothing; otherwise the first min(5, candidates) active matching cars |
| `Search.AutocompleteComplete` | controllers/searchController.js:330-345 | with at most 5 candidates, every active matching car is suggested |

## Findings

| source | as written | input that shows it | evidently intended | confidence | as-written member | corrected member |
|---|---|---|---|---|---|---|
| controllers/bookingController.js:103-105 | `createBooking` passes `Booking.create` a document with status `PENDING` and without `pickupLocation`, `dropoffLocation`, `basePrice` or `deposit`; the schema requires those fields (models/Booking.js:39-45, 69-71, 91-93) and has no `PENDING` status (models/Booking.js:131-137) | any request that passes the three checks | the booking is stored | not executed; high | `BookingController.CreateBookingAsWritten` (shown by `BookingController.CreateBookingAsWrittenNeverStores`) | `BookingController.CreateBooking` (proved by `BookingController.CreateBookingPreservesSchedule`) |
| models/Review.js:117-129 | the pre-save hook recomputes the car's average from `Review.find`, which reads the reviews as stored before this save, so the edited review still has its previous `overallRating` | one visible review rated 2, edited to 5 | the car's average reflects the new rating (5) | not executed; high | `ReviewModel.PreSaveHookAsWritten` (shown by `ReviewModel.StaleRatingCounterexample`) | `ReviewModel.PreSaveHook` (proved by `ReviewModel.PreSaveHookSeesEdit`) |

## Left out

- Database and HTTP plumbing are left out: queries, `save`, `populate`, redirects, rendering,
  JSON responses and the localized messages. Stores are in-memory values, and each request is
  one atomic function.
- Concurrency is left out. The check-then-insert races in `createBooking` and
  `checkCarAvailability` cannot arise in a sequential model.
- Time zones and daylight saving are left out. Today's midnight (`setHours(0, 0, 0, 0)`) and
  `getDay` are taken in UTC.
- Parsing of dates and numbers is left out. An unparsable date is `None`, and a numeric search
  bound is `None` when absent. `parseInt` / `parseFloat` failures (NaN) are not modelled.
- JavaScript doubles are not modelled; money and ratings are exact reals.
- `Search.ToUpper` upper-cases ASCII letters only, where `toUpperCase` is Unicode-aware.
- Regular-expression matching is left out: the city and district filters and the autocomplete
  text match. Autocomplete takes the text match as a parameter.
- Sorting is left to the database and not modelled. This covers `sortBy` / `sortOrder`, and the
  rating order of similar cars. Results are in store order.
- `Search.SearchCars`: requires the page and limit in force (given or defaulted) to be ≥ 1. Other values give a negative skip or an
  Infinity/NaN page count in the source.
- `Search.SimilarCars`: a negative `limit` is taken by its absolute value, which is MongoDB's
  reading of a negative limit.
- The review post-save trigger (`wasNew` calling `updateRating`) is left out. Its effect is
  `CarModel.UpdateRating`, which is modelled.
- Mongoose validation is modelled for the document `createBooking` creates, as far as required
  fields and the status enumeration go (`BookingModel.PassesValidation`). The updates through
  `findByIdAndUpdate` run no validators and are modelled as they write.
- Fields the engine never reads are left out: car brand, model, plate, year, location, images,
  owner and description. Also booking locations, payment method and id, notes, and refund amount.
- Left out as outside the booking engine: `getFilterOptions`, `getPopularCars`,
  `getFeaturedCars`, `deleteBooking` and the form-rendering handlers.

=== FILE: booking.dfy ===
/** The booking entity as the schema defines it: fields, validators, virtuals,
    instance methods and the `isCarAvailable` query. */
module BookingModel {

  import opened Wrappers
  import opened Time
  import opened Money
  import opened Intervals
  import opened CarModel
  import Pricing

  type BookingId = nat
  type UserId = nat

  /** The schema's status enumeration. */
  datatype BookingStatus = PaymentPending | Confirmed | InProgress | Completed | Cancelled

  /** The stored spelling of each status. */
  function StatusName(s: BookingStatus): string
  {
    match s
    case PaymentPending => "PAYMENT_PENDING"
    case Confirmed => "CONFIRMED"
    case InProgress => "IN_PROGRESS"
    case Completed => "COMPLETED"
    case Cancelled => "CANCELLED"
  }

  datatype PaymentStatus = Pending | Paid | Refunded | Failed | Partial

  /** A booking document. Locations, payment method and notes are not read by the
      engine and are left out. */
  datatype Booking = Booking(
    id: BookingId,
    carId: CarId,
    userId: UserId,
    startDate: Time,
    endDate: Time,
    actualStartDate: Option<Time>,
    actualEndDate: Option<Time>,
    mileageStart: Option<int>,
    mileageEnd: Option<int>,
    mileageDriven: int,
    basePrice: real,
    insuranceFee: real,
    serviceFee: real,
    extraMileageFee: real,
    deposit: real,
    totalPrice: real,
    paymentStatus: PaymentStatus,
    status: BookingStatus,
    createdAt: Time,
    cancelledAt: Option<Time>)

  const AllowedKmPerDay: int := 200
  const DefaultExtraMileageRate: real := 5000.0
  const CancelNoticeHours: real := 24.0

  /** A mileage reading is falsy when absent or zero. */
  predicate Truthy(m: Option<int>)
  {
    m.Some? && m.value != 0
  }

  /** The `mileageEnd` validator: accepted when no (truthy) start reading exists
      or the end reading is not below it. */
  predicate MileageEndValid(mileageStart: Option<int>, mileageEnd: int)
  {
    !Truthy(mileageStart) || mileageEnd >= mileageStart.value
  }

  /** Every schema validator: the end after the start, the mileage rule,
      and the `min: 0` bounds. */
  predicate SchemaValid(b: Booking)
  {
    && b.endDate > b.startDate
    && (b.mileageStart.Some? ==> b.mileageStart.value >= 0)
    && (b.mileageEnd.Some? ==> b.mileageEnd.value >= 0 && MileageEndValid(b.mileageStart, b.mileageEnd.value))
    && b.basePrice >= 0.0 && b.insuranceFee >= 0.0 && b.serviceFee >= 0.0
    && b.extraMileageFee >= 0.0 && b.deposit >= 0.0 && b.totalPrice >= 0.0
  }

  /** The `durationDays` virtual: whole days between the two dates, in either
      order, and 0 when a date is missing. */
  function DurationDaysOf(start: Option<Time>, end: Option<Time>): (r: int)
    ensures r >= 0
    ensures start.None? || end.None? ==> r == 0
    ensures start.Some? && end.Some? ==>
      (r - 1) * DayMs < Abs(end.value - start.value) <= r * DayMs
  {
    if start.None? || end.None? then 0
    else CeilDays(Abs(end.value - start.value))
  }

  function DurationDays(b: Booking): int
  {
    DurationDaysOf(Some(b.startDate), Some(b.endDate))
  }

  /** A booking that passes the date validator lasts at least one day. */
  lemma ValidBookingLastsADay(b: Booking)
    requires b.endDate > b.startDate
    ensures DurationDays(b) >= 1
  {
  }

  /** The `isActive` virtual: the booking holds its car. */
  function IsActive(b: Booking): (r: bool)
    ensures r <==> b.status == Confirmed || b.status == InProgress
  {
    b.status == Confirmed || b.status == InProgress
  }

  /** The `canCancel` virtual at instant `now`: confirmed, and the start is
      more than 24 hours away (hours measured as a real quotient). */
  function CanCancel(b: Booking, now: Time): (r: bool)
    ensures r <==> b.status == Confirmed && b.startDate - now > 24 * HourMs
  {
    if b.status != Confirmed then false
    else
      var hoursDiff := (b.startDate - now) as real / HourMs as real;
      assert hoursDiff > CancelNoticeHours <==> b.startDate - now > 24 * HourMs;
      hoursDiff > CancelNoticeHours
  }

  /** Confirmed bookings starting in 12 hours or in exactly 24 hours cannot be
      cancelled; one starting in 48 hours can. */
  lemma CancellationWindowExamples(b: Booking, now: Time)
    requires b.status == Confirmed
    ensures b.startDate == now + 12 * HourMs ==> !CanCancel(b, now)
    ensures b.startDate == now + 24 * HourMs ==> !CanCancel(b, now)
    ensures b.startDate == now + 48 * HourMs ==> CanCancel(b, now)
  {
  }

  /** `canComplete`: in progress and the car was handed back. */
  function CanComplete(b: Booking): (r: bool)
    ensures r <==> b.status == InProgress && b.actualEndDate.Some?
    ensures r ==> IsActive(b) && forall now :: !CanCancel(b, now)
  {
    b.status == InProgress && b.actualEndDate.Some?
  }

  /** `calculateTotalPrice`: the total is the sum of the four charges; nothing
      else changes. */
  function CalculateTotalPrice(b: Booking): (b': Booking)
    ensures b' == b.(totalPrice := b'.totalPrice)
    ensures b'.totalPrice - b'.extraMileageFee == b.basePrice + b.insuranceFee + b.serviceFee
  {
    b.(totalPrice := b.basePrice + b.insuranceFee + b.serviceFee + b.extraMileageFee)
  }

  /** Recomputing the total keeps a schema-valid booking valid. */
  lemma CalculateTotalPriceKeepsValid(b: Booking)
    requires SchemaValid(b)
    ensures SchemaValid(CalculateTotalPrice(b))
    ensures CalculateTotalPrice(b).totalPrice >= b.basePrice
  {
  }

  /** `calculateExtraMileageFee(rate)`: kilometres beyond a flat 200 per booked day,
      charged at `rate` (5000 when the rate is absent or zero). The car's own
      `mileageLimit` is not consulted. Returns the updated booking and the fee. */
  function CalculateExtraMileageFee(b: Booking, rate: Option<real>): (r: (Booking, real))
    ensures !Truthy(b.mileageStart) || !Truthy(b.mileageEnd) ==> r == (b, 0.0)
    ensures Truthy(b.mileageStart) && Truthy(b.mileageEnd) ==>
      && r.0 == b.(mileageDriven := r.0.mileageDriven, extraMileageFee := r.1)
      && r.0.mileageDriven == b.mileageEnd.value - b.mileageStart.value
    ensures (rate.None? || rate.value >= 0.0) ==> r.1 >= 0.0
  {
    if !Truthy(b.mileageStart) || !Truthy(b.mileageEnd) then (b, 0.0)
    else
      var driven := b.mileageEnd.value - b.mileageStart.value;
      var allowed := DurationDays(b) * AllowedKmPerDay;
      var extra := if driven - allowed > 0 then driven - allowed else 0;
      var perKm := if rate.None? || rate.value == 0.0 then DefaultExtraMileageRate else rate.value;
      var fee := extra as real * perKm;
      (b.(mileageDriven := driven, extraMileageFee := fee), fee)
  }

  /** The fee charges exactly the kilometres over the flat allowance, and
      nothing when the allowance was respected. */
  lemma ExtraMileageFeeCharged(b: Booking, rate: Option<real>)
    requires Truthy(b.mileageStart) && Truthy(b.mileageEnd)
    ensures var driven := b.mileageEnd.value - b.mileageStart.value;
      var allowed := DurationDays(b) * 200;
      var perKm := if rate.None? || rate.value == 0.0 then 5000.0 else rate.value;
      var fee := CalculateExtraMileageFee(b, rate).1;
      && (driven <= allowed ==> fee == 0.0)
      && (driven > allowed ==> fee == (driven - allowed) as real * perKm)
  {
  }

  /** A zero rate is falsy and means the default 5000 per kilometre, exactly as
      an absent rate does. */
  lemma ZeroRateMeansDefault(b: Booking)
    ensures CalculateExtraMileageFee(b, Some(0.0)) == CalculateExtraMileageFee(b, None)
    ensures CalculateExtraMileageFee(b, None) == CalculateExtraMileageFee(b, Some(DefaultExtraMileageRate))
  {
  }

  /** A booking that passes the mileage validator never records a negative distance. */
  lemma ValidMileageDrivesForward(b: Booking, rate: Option<real>)
    requires SchemaValid(b) && Truthy(b.mileageStart) && Truthy(b.mileageEnd)
    ensures CalculateExtraMileageFee(b, rate).0.mileageDriven >= 0
  {
  }

  /** Schema defaults for a new booking: awaiting payment, payment pending, no
      insurance, no mileage, and a service fee of 10% of the base price rounded
      half-up when not given; the given fields are stored as they are. */
  function NewBooking(
    id: BookingId, carId: CarId, userId: UserId, start: Time, end: Time,
    basePrice: real, deposit: real, totalPrice: real,
    insuranceFee: Option<real>, serviceFee: Option<real>, createdAt: Time): (b: Booking)
    ensures b.id == id && b.carId == carId && b.userId == userId
    ensures b.startDate == start && b.endDate == end && b.createdAt == createdAt
    ensures b.basePrice == basePrice && b.deposit == deposit && b.totalPrice == totalPrice
    ensures b.status == PaymentPending && b.paymentStatus == Pending
    ensures b.insuranceFee == (if insuranceFee.Some? then insuranceFee.value else 0.0)
    ensures serviceFee.Some? ==> b.serviceFee == serviceFee.value
    ensures serviceFee.None? ==> b.serviceFee == Round(basePrice * Pricing.ServiceFeeRate) as real
    ensures serviceFee.None? ==> basePrice * 0.1 - 0.5 < b.serviceFee <= basePrice * 0.1 + 0.5
    ensures b.extraMileageFee == 0.0 && b.mileageDriven == 0
    ensures b.actualStartDate.None? && b.actualEndDate.None? && b.cancelledAt.None?
    ensures b.mileageStart.None? && b.mileageEnd.None?
  {
    Booking(id, carId, userId, start, end, None, None, None, None, 0,
      basePrice, OrElse(insuranceFee, 0.0),
      OrElse(serviceFee, Round(basePrice * Pricing.ServiceFeeRate) as real),
      0.0, deposit, totalPrice, Pending, PaymentPending, createdAt, None)
  }

  /** A new booking neither holds its car nor can be cancelled or completed. */
  lemma NewBookingIsInert(
    id: BookingId, carId: CarId, userId: UserId, start: Time, end: Time,
    basePrice: real, deposit: real, totalPrice: real, createdAt: Time, now: Time)
    ensures var b := NewBooking(id, carId, userId, start, end, basePrice, deposit, totalPrice, None, None, createdAt);
      !IsActive(b) && !CanCancel(b, now) && !CanComplete(b)
  {
  }

  /** The three `$or` clauses of the `isCarAvailable` query: the new period starts
      inside, ends inside, or contains the existing one `[bs, be]`. */
  predicate QueryClauses(bs: Time, be: Time, start: Time, end: Time)
  {
    || (bs <= start && be > start)
    || (bs < end && be >= end)
    || (bs >= start && be <= end)
  }

  /** For non-empty periods the three clauses say exactly "the half-open periods overlap". */
  lemma QueryClausesAreOverlap(bs: Time, be: Time, start: Time, end: Time)
    requires bs < be && start < end
    ensures QueryClauses(bs, be, start, end) <==> Overlaps(bs, be, start, end)
  {
    if Overlaps(bs, be, start, end) {
      if bs > start && be < end {
        assert bs >= start && be <= end;
      }
    }
  }

  /** A booking matched by the query: same car, holding it, not the excluded one,
      and meeting one of the clauses. */
  predicate Blocks(b: Booking, carId: CarId, start: Time, end: Time, exclude: Option<BookingId>)
  {
    && b.carId == carId
    && IsActive(b)
    && (exclude.Some? ==> b.id != exclude.value)
    && QueryClauses(b.startDate, b.endDate, start, end)
  }

  /** `findOne(query)`: the first stored booking the query matches. */
  function FindConflict(bookings: seq<Booking>, carId: CarId, start: Time, end: Time, exclude: Option<BookingId>): (r: Option<Booking>)
    ensures r.None? <==> forall i :: 0 <= i < |bookings| ==> !Blocks(bookings[i], carId, start, end, exclude)
    ensures r.Some? ==> r.value in bookings && Blocks(r.value, carId, start, end, exclude)
  {
    if |bookings| == 0 then None
    else if Blocks(bookings[0], carId, start, end, exclude) then Some(bookings[0])
    else
      var rest := FindConflict(bookings[1..], carId, start, end, exclude);
      assert forall i :: 1 <= i < |bookings| ==> bookings[i] == bookings[1..][i - 1];
      rest
  }

  /** `Booking.isCarAvailable`: no conflicting booking was found. */
  function IsCarAvailable(bookings: seq<Booking>, carId: CarId, start: Time, end: Time, exclude: Option<BookingId>): (r: bool)
    ensures r <==> forall i :: 0 <= i < |bookings| ==> !Blocks(bookings[i], carId, start, end, exclude)
  {
    FindConflict(bookings, carId, start, end, exclude).None?
  }

  /** A booking over a non-empty period blocks its own car on its own dates
      exactly when it is active: only CONFIRMED and IN_PROGRESS bookings hold a car. */
  lemma ActiveIffBlocking(b: Booking)
    requires b.startDate < b.endDate
    ensures IsActive(b) <==> Blocks(b, b.carId, b.startDate, b.endDate, None)
  {
  }

  /** Over schema-valid bookings and a non-empty period, the query admits exactly
      when no other active booking of the car overlaps the half-open period;
      pending, completed and cancelled bookings and the excluded one never block. */
  lemma IsCarAvailableHalfOpen(bookings: seq<Booking>, carId: CarId, start: Time, end: Time, exclude: Option<BookingId>)
    requires start < end
    requires forall i :: 0 <= i < |bookings| ==> bookings[i].startDate < bookings[i].endDate
    ensures IsCarAvailable(bookings, carId, start, end, exclude) <==>
      forall i :: 0 <= i < |bookings| && bookings[i].carId == carId && IsActive(bookings[i])
                  && (exclude.Some? ==> bookings[i].id != exclude.value)
                  ==> !Overlaps(bookings[i].startDate, bookings[i].endDate, start, end)
  {
    forall i | 0 <= i < |bookings|
      ensures QueryClauses(bookings[i].startDate, bookings[i].endDate, start, end)
          <==> Overlaps(bookings[i].startDate, bookings[i].endDate, start, end)
    {
      QueryClausesAreOverlap(bookings[i].startDate, bookings[i].endDate, start, end);
    }
  }

  // ---------------------------------------------------------------- create-time validation

  /** The fields the schema marks `required`. */
  const RequiredFields: set<string> :=
    {"carId", "userId", "startDate", "endDate", "pickupLocation", "dropoffLocation",
     "basePrice", "deposit", "totalPrice"}

  /** A document handed to `Booking.create`: the names of the fields it sets and
      its status string, when set. */
  datatype Document = Document(fields: set<string>, status: Option<string>)

  /** The validation `create` runs, as far as the required fields and the status
      enumeration go (the date, mileage and `min` validators are `SchemaValid`). */
  function PassesValidation(d: Document): (ok: bool)
    ensures ok <==> RequiredFields <= d.fields && (d.status.Some? ==> exists s :: StatusName(s) == d.status.value)
  {
    && RequiredFields <= d.fields
    && (d.status.Some? ==> StatusOf(d.status.value).Some?)
  }

  /** The schema's status enumeration read back: the status a stored string names. */
  function StatusOf(name: string): (r: Option<BookingStatus>)
    ensures r.Some? ==> StatusName(r.value) == name
    ensures r.None? ==> forall s :: StatusName(s) != name
  {
    if name == "PAYMENT_PENDING" then Some(PaymentPending)
    else if name == "CONFIRMED" then Some(Confirmed)
    else if name == "IN_PROGRESS" then Some(InProgress)
    else if name == "COMPLETED" then Some(Completed)
    else if name == "CANCELLED" then Some(Cancelled)
    else None
  }

  /** Reading back a stored status gives the status. */
  lemma StatusNameRoundTrip(s: BookingStatus)
    ensures StatusOf(StatusName(s)) == Some(s)
  {
  }

  /** A document with every required field and any schema status is accepted. */
  lemma SchemaStatusesAccepted(fields: set<string>, s: BookingStatus)
    requires RequiredFields <= fields
    ensures PassesValidation(Document(fields, Some(StatusName(s))))
  {
  }
}

=== FILE: booking_controller.dfy ===
/** The admin booking controller. It keeps its own status vocabulary
    (PENDING, CONFIRMED_UNPAID, CONFIRMED_PAID, COMPLETED, CANCELLED), distinct
    from the schema enumeration, and couples booking status to car status. */
module BookingController {

  import opened Wrappers
  import opened Time
  import opened Seqs
  import opened Intervals
  import opened CarModel
  import BookingModel

  type BookingId = BookingModel.BookingId
  type UserId = BookingModel.UserId

  /** The spellings of the controller's own statuses. */
  const KnownStatusNames: seq<string> := ["PENDING", "CONFIRMED_UNPAID", "CONFIRMED_PAID", "COMPLETED", "CANCELLED"]

  /** A status string the controller does not know. */
  type UnknownName = s: string | s !in KnownStatusNames witness ""

  /** The controller's statuses; any other stored or submitted string is `Other`. */
  datatype AdminStatus = Pending | ConfirmedUnpaid | ConfirmedPaid | Completed | Cancelled | Other(name: UnknownName)

  function StatusName(s: AdminStatus): string
  {
    match s
    case Pending => "PENDING"
    case ConfirmedUnpaid => "CONFIRMED_UNPAID"
    case ConfirmedPaid => "CONFIRMED_PAID"
    case Completed => "COMPLETED"
    case Cancelled => "CANCELLED"
    case Other(n) => n
  }

  /** Reading a submitted or stored status string. */
  function ParseStatus(s: string): (r: AdminStatus)
    ensures StatusName(r) == s
    ensures r.Other? <==> s !in KnownStatusNames
  {
    if s == "PENDING" then Pending
    else if s == "CONFIRMED_UNPAID" then ConfirmedUnpaid
    else if s == "CONFIRMED_PAID" then ConfirmedPaid
    else if s == "COMPLETED" then Completed
    else if s == "CANCELLED" then Cancelled
    else Other(s)
  }

  /** Writing a status and reading it back gives the same status. */
  lemma StatusRoundTrip(s: AdminStatus)
    ensures ParseStatus(StatusName(s)) == s
  {
  }

  /** A booking as the controller stores it. */
  datatype AdminBooking = AdminBooking(
    id: BookingId,
    userId: UserId,
    carId: CarId,
    startDate: Time,
    endDate: Time,
    totalPrice: real,
    status: AdminStatus)

  /** The ways an admin request fails: the three re-rendered form errors, a
      missing booking, and a document the schema refuses (a 500 response). */
  datatype AdminError = EndNotAfterStart | CarNotFound | ScheduleConflict | BookingNotFound | ValidationFailed

  /** `calculateCost`: whole days, rounded up, times the daily rate. */
  function CalculateCost(start: Time, end: Time, pricePerDay: real): (cost: real)
    ensures exists days: int :: cost == days as real * pricePerDay && (days - 1) * DayMs < end - start <= days * DayMs
  {
    var days := CeilDays(end - start);
    days as real * pricePerDay
  }

  /** For a period that ends after it starts, the controller bills the same number
      of days as the schema's `durationDays`. */
  lemma CalculateCostUsesDuration(start: Time, end: Time, pricePerDay: real)
    requires start < end
    ensures CalculateCost(start, end, pricePerDay)
            == BookingModel.DurationDaysOf(Some(start), Some(end)) as real * pricePerDay
    ensures BookingModel.DurationDaysOf(Some(start), Some(end)) >= 1
  {
  }

  /** `isOverlap`: some listed booking overlaps `[newStart, newEnd)` (`Array.prototype.some`). */
  function IsOverlap(newStart: Time, newEnd: Time, bookings: seq<AdminBooking>): (r: bool)
    ensures r <==> exists i :: 0 <= i < |bookings| && Overlaps(newStart, newEnd, bookings[i].startDate, bookings[i].endDate)
  {
    if |bookings| == 0 then false
    else if newStart < bookings[0].endDate && newEnd > bookings[0].startDate then true
    else
      var rest := IsOverlap(newStart, newEnd, bookings[1..]);
      assert forall i :: 1 <= i < |bookings| ==> bookings[i] == bookings[1..][i - 1];
      rest
  }

  /** An empty list never conflicts, and a period starting when a listed one ends does not conflict with it. */
  lemma IsOverlapBoundaries(s: Time, e: Time, b: AdminBooking)
    ensures !IsOverlap(s, e, [])
    ensures b.endDate == s ==> !IsOverlap(s, e, [b])
    ensures b.startDate == e ==> !IsOverlap(s, e, [b])
  {
  }

  /** The bookings the overlap check is run against: same car, not cancelled, not the excluded one. */
  predicate Competes(b: AdminBooking, carId: CarId, exclude: Option<BookingId>)
  {
    b.carId == carId && b.status != Cancelled && (exclude.Some? ==> b.id != exclude.value)
  }

  function CarBookings(bookings: seq<AdminBooking>, carId: CarId, exclude: Option<BookingId>): seq<AdminBooking>
  {
    Filter(bookings, b => Competes(b, carId, exclude))
  }

  /** Some stored booking competes for the car and overlaps `[s, e)`. */
  predicate Conflicts(bookings: seq<AdminBooking>, carId: CarId, exclude: Option<BookingId>, s: Time, e: Time)
  {
    exists i :: 0 <= i < |bookings| && Competes(bookings[i], carId, exclude)
                && Overlaps(s, e, bookings[i].startDate, bookings[i].endDate)
  }

  /** The overlap check over the filtered list is a check over every competing booking of the store. */
  lemma CarBookingsOverlap(bookings: seq<AdminBooking>, carId: CarId, exclude: Option<BookingId>, s: Time, e: Time)
    ensures IsOverlap(s, e, CarBookings(bookings, carId, exclude)) <==> Conflicts(bookings, carId, exclude, s, e)
  {
    var cb := CarBookings(bookings, carId, exclude);
    if IsOverlap(s, e, cb) {
      var j :| 0 <= j < |cb| && Overlaps(s, e, cb[j].startDate, cb[j].endDate);
      var i :| 0 <= i < |bookings| && bookings[i] == cb[j];
    }
    if exists i :: 0 <= i < |bookings| && Competes(bookings[i], carId, exclude)
                  && Overlaps(s, e, bookings[i].startDate, bookings[i].endDate) {
      var i :| 0 <= i < |bookings| && Competes(bookings[i], carId, exclude)
                  && Overlaps(s, e, bookings[i].startDate, bookings[i].endDate);
      var j :| 0 <= j < |cb| && cb[j] == bookings[i];
    }
  }

  /** The central invariant: no two non-cancelled bookings of one car overlap. */
  predicate ScheduleConsistent(bookings: seq<AdminBooking>)
  {
    forall i, j :: 0 <= i < |bookings| && 0 <= j < |bookings| && i != j
      && bookings[i].carId == bookings[j].carId
      && bookings[i].status != Cancelled && bookings[j].status != Cancelled
      ==> !Overlaps(bookings[i].startDate, bookings[i].endDate, bookings[j].startDate, bookings[j].endDate)
  }

  predicate UniqueIds(bookings: seq<AdminBooking>)
  {
    forall i, j :: 0 <= i < |bookings| && 0 <= j < |bookings| && i != j ==> bookings[i].id != bookings[j].id
  }

  /** `createBooking`: end after start, the car exists, no overlap with a
      non-cancelled booking of the car; then a PENDING booking priced by
      `calculateCost` is appended under the store-chosen `newId`. */
  function CreateBooking(bookings: seq<AdminBooking>, cars: map<CarId, Car>, newId: BookingId,
                         userId: UserId, carId: CarId, start: Time, end: Time): (r: Result<seq<AdminBooking>, AdminError>)
    ensures r == Err(EndNotAfterStart) <==> end <= start
    ensures r == Err(CarNotFound) <==> start < end && carId !in cars
    ensures r == Err(ScheduleConflict) <==> start < end && carId in cars && Conflicts(bookings, carId, None, start, end)
    ensures r.Ok? <==> start < end && carId in cars && !Conflicts(bookings, carId, None, start, end)
    ensures r.Ok? ==>
      && start < end && carId in cars
      && |r.value| == |bookings| + 1 && r.value[..|bookings|] == bookings
      && r.value[|bookings|] == AdminBooking(newId, userId, carId, start, end,
                                             CalculateCost(start, end, cars[carId].pricePerDay), Pending)
      && forall i :: 0 <= i < |bookings| && bookings[i].carId == carId && bookings[i].status != Cancelled
                     ==> !Overlaps(start, end, bookings[i].startDate, bookings[i].endDate)
  {
    if end <= start then Err(EndNotAfterStart)
    else if carId !in cars then Err(CarNotFound)
    else
      CarBookingsOverlap(bookings, carId, None, start, end);
      if IsOverlap(start, end, CarBookings(bookings, carId, None)) then Err(ScheduleConflict)
      else
        Ok(bookings + [AdminBooking(newId, userId, carId, start, end,
                                    CalculateCost(start, end, cars[carId].pricePerDay), Pending)])
  }

  /** The fields `createBooking` hands to `Booking.create`. */
  const CreatedFields: set<string> := {"userId", "carId", "startDate", "endDate", "totalPrice", "status"}

  /** The document `createBooking` asks the schema to store. */
  function CreatedDocument(): BookingModel.Document
  {
    BookingModel.Document(CreatedFields, Some("PENDING"))
  }

  /** `createBooking` with `Booking.create` validating the document it is given:
      the same checks, then a refusal whenever the document fails validation. */
  function CreateBookingAsWritten(bookings: seq<AdminBooking>, cars: map<CarId, Car>, newId: BookingId,
                                  userId: UserId, carId: CarId, start: Time, end: Time): (r: Result<seq<AdminBooking>, AdminError>)
    ensures CreateBooking(bookings, cars, newId, userId, carId, start, end).Err? ==>
              r == CreateBooking(bookings, cars, newId, userId, carId, start, end)
    ensures CreateBooking(bookings, cars, newId, userId, carId, start, end).Ok? ==>
              r == (if BookingModel.PassesValidation(CreatedDocument())
                    then CreateBooking(bookings, cars, newId, userId, carId, start, end)
                    else Err(ValidationFailed))
  {
    var r := CreateBooking(bookings, cars, newId, userId, carId, start, end);
    if r.Ok? && !BookingModel.PassesValidation(CreatedDocument()) then Err(ValidationFailed) else r
  }

  /** The document lacks the schema's required pickup and drop-off locations,
      base price and deposit, and its status "PENDING" is not in the schema's
      enumeration, so every request that passes the checks ends in a refusal
      and no booking is ever stored. */
  lemma CreateBookingAsWrittenNeverStores(bookings: seq<AdminBooking>, cars: map<CarId, Car>, newId: BookingId,
                                         userId: UserId, carId: CarId, start: Time, end: Time)
    ensures "pickupLocation" in BookingModel.RequiredFields - CreatedFields
    ensures BookingModel.StatusOf("PENDING").None?
    ensures CreateBookingAsWritten(bookings, cars, newId, userId, carId, start, end).Err?
    ensures CreateBooking(bookings, cars, newId, userId, carId, start, end).Ok? <==>
              CreateBookingAsWritten(bookings, cars, newId, userId, carId, start, end) == Err(ValidationFailed)
  {
    assert "pickupLocation" !in CreatedDocument().fields;
  }

  /** Creating a booking keeps the schedule free of double bookings. */
  lemma CreateBookingPreservesSchedule(bookings: seq<AdminBooking>, cars: map<CarId, Car>, newId: BookingId,
                                       userId: UserId, carId: CarId, start: Time, end: Time)
    requires ScheduleConsistent(bookings)
    requires CreateBooking(bookings, cars, newId, userId, carId, start, end).Ok?
    ensures ScheduleConsistent(CreateBooking(bookings, cars, newId, userId, carId, start, end).value)
  {
    var r := CreateBooking(bookings, cars, newId, userId, carId, start, end).value;
    assert forall i :: 0 <= i < |bookings| ==> r[i] == bookings[i];
  }

  /** The first stored booking with the given id (`findById`). */
  function FindIndex(bookings: seq<AdminBooking>, id: BookingId): (r: Option<nat>)
    ensures r.None? <==> forall i :: 0 <= i < |bookings| ==> bookings[i].id != id
    ensures r.Some? ==> r.value < |bookings| && bookings[r.value].id == id
                        && forall i :: 0 <= i < r.value ==> bookings[i].id != id
  {
    if |bookings| == 0 then None
    else if bookings[0].id == id then Some(0)
    else
      match FindIndex(bookings[1..], id)
      case None => None
      case Some(k) => Some(k + 1)
  }

  /** The lookup reads ids only, so rewriting other fields does not move it. */
  lemma {:induction false} FindIndexSameIds(a: seq<AdminBooking>, b: seq<AdminBooking>, id: BookingId)
    requires |a| == |b| && forall i :: 0 <= i < |a| ==> a[i].id == b[i].id
    ensures FindIndex(a, id) == FindIndex(b, id)
  {
    if |a| > 0 {
      FindIndexSameIds(a[1..], b[1..], id);
    }
  }

  /** `Car.findByIdAndUpdate(id, { status })`: a missing car is left alone. */
  function SetCarStatus(cars: map<CarId, Car>, id: CarId, status: CarStatus): (cars': map<CarId, Car>)
    ensures cars'.Keys == cars.Keys
    ensures id in cars ==> cars'[id] == cars[id].(status := status)
    ensures forall k :: k in cars && k != id ==> cars'[k] == cars[k]
  {
    if id in cars then cars[id := cars[id].(status := status)] else cars
  }

  /** The car status a booking status entails, if any. */
  function CarStatusFor(s: AdminStatus): (r: Option<CarStatus>)
    ensures r == Some(Rented) <==> s == ConfirmedUnpaid || s == ConfirmedPaid
    ensures r == Some(Available) <==> s == Completed || s == Cancelled || s == Pending
    ensures r.None? <==> s.Other?
  {
    if s == ConfirmedUnpaid || s == ConfirmedPaid then Some(Rented)
    else if s == Completed || s == Cancelled then Some(Available)
    else if s == Pending then Some(Available)
    else None
  }

  /** `updateBookingStatus`: any status may be written (no transition table);
      the booking's car follows it: confirmed statuses rent the car, pending,
      completed and cancelled free it, anything else leaves it alone. */
  function UpdateBookingStatus(bookings: seq<AdminBooking>, cars: map<CarId, Car>, id: BookingId, status: AdminStatus)
    : (r: Result<(seq<AdminBooking>, map<CarId, Car>), AdminError>)
    ensures r.Err? <==> forall i :: 0 <= i < |bookings| ==> bookings[i].id != id
    ensures r.Err? ==> r.error == BookingNotFound
    ensures r.Ok? ==>
      var k := FindIndex(bookings, id).value;
      var carId := bookings[k].carId;
      && r.value.0 == bookings[k := bookings[k].(status := status)]
      && r.value.1.Keys == cars.Keys
      && (forall c :: c in cars && c != carId ==> r.value.1[c] == cars[c])
      && (carId in cars ==> r.value.1[carId] == cars[carId].(status := OrElse(CarStatusFor(status), cars[carId].status)))
  {
    match FindIndex(bookings, id)
    case None => Err(BookingNotFound)
    case Some(k) =>
      var updated := bookings[k := bookings[k].(status := status)];
      var carId := bookings[k].carId;
      match CarStatusFor(status)
      case Some(carStatus) => Ok((updated, SetCarStatus(cars, carId, carStatus)))
      case None => Ok((updated, cars))
  }

  /** Writing the same status twice has the effect of writing it once. */
  lemma UpdateBookingStatusIdempotent(bookings: seq<AdminBooking>, cars: map<CarId, Car>, id: BookingId, status: AdminStatus)
    requires UpdateBookingStatus(bookings, cars, id, status).Ok?
    ensures var once := UpdateBookingStatus(bookings, cars, id, status).value;
      UpdateBookingStatus(once.0, once.1, id, status) == Ok(once)
  {
    var k := FindIndex(bookings, id).value;
    var once := UpdateBookingStatus(bookings, cars, id, status).value;
    FindIndexSameIds(bookings, once.0, id);
    var carId := bookings[k].carId;
    assert once.0[k] == bookings[k].(status := status);
    assert once.0[k := once.0[k].(status := status)] == once.0;
    match CarStatusFor(status)
    case None =>
    case Some(st) =>
      assert SetCarStatus(once.1, carId, st) == once.1;
  }

  /** Without a transition table, reopening a cancelled booking is accepted even
      when a newer booking of the same car now holds those dates, so the
      double-booking invariant is not preserved by status changes. */
  lemma ReopeningCancelledCanDoubleBook()
    ensures var bs := [AdminBooking(1, 7, 3, 0, DayMs, 0.0, Cancelled),
                       AdminBooking(2, 8, 3, 0, DayMs, 0.0, Pending)];
      && ScheduleConsistent(bs)
      && UpdateBookingStatus(bs, map[], 1, Pending).Ok?
      && !ScheduleConsistent(UpdateBookingStatus(bs, map[], 1, Pending).value.0)
  {
    var bs := [AdminBooking(1, 7, 3, 0, DayMs, 0.0, Cancelled),
               AdminBooking(2, 8, 3, 0, DayMs, 0.0, Pending)];
    var after := UpdateBookingStatus(bs, map[], 1, Pending).value.0;
    assert after[0].status == Pending && after[1].status == Pending;
    assert Overlaps(after[0].startDate, after[0].endDate, after[1].startDate, after[1].endDate);
  }

  /** Some stored booking has the id. */
  predicate HasBooking(bookings: seq<AdminBooking>, id: BookingId)
  {
    exists i :: 0 <= i < |bookings| && bookings[i].id == id
  }

  predicate IsConfirmed(s: AdminStatus)
  {
    s == ConfirmedUnpaid || s == ConfirmedPaid
  }

  /** `updateBooking`: the booking exists, end after start, the new car exists, no
      overlap with another non-cancelled booking of the new car; then the booking
      takes the new user, car, dates and cost, keeping its status. A confirmed
      booking moved to another car frees the old car and rents the new one. */
  function UpdateBooking(bookings: seq<AdminBooking>, cars: map<CarId, Car>, id: BookingId,
                         userId: UserId, carId: CarId, start: Time, end: Time)
    : (r: Result<(seq<AdminBooking>, map<CarId, Car>), AdminError>)
    ensures r == Err(BookingNotFound) <==> !HasBooking(bookings, id)
    ensures r == Err(EndNotAfterStart) <==> HasBooking(bookings, id) && end <= start
    ensures r == Err(CarNotFound) <==> HasBooking(bookings, id) && start < end && carId !in cars
    ensures r == Err(ScheduleConflict) <==>
      HasBooking(bookings, id) && start < end && carId in cars && Conflicts(bookings, carId, Some(id), start, end)
    ensures r.Ok? <==>
      HasBooking(bookings, id) && start < end && carId in cars && !Conflicts(bookings, carId, Some(id), start, end)
    ensures r.Ok? ==>
      var k := FindIndex(bookings, id).value;
      var prior := bookings[k];
      && start < end && carId in cars
      && r.value.0 == bookings[k := AdminBooking(id, userId, carId, start, end,
                                                 CalculateCost(start, end, cars[carId].pricePerDay), prior.status)]
      && (forall i :: 0 <= i < |bookings| && Competes(bookings[i], carId, Some(id))
                      ==> !Overlaps(start, end, bookings[i].startDate, bookings[i].endDate))
      && (IsConfirmed(prior.status) && prior.carId != carId ==>
            r.value.1 == SetCarStatus(SetCarStatus(cars, prior.carId, Available), carId, Rented))
      && (!IsConfirmed(prior.status) || prior.carId == carId ==> r.value.1 == cars)
  {
    match FindIndex(bookings, id)
    case None => Err(BookingNotFound)
    case Some(k) =>
      if end <= start then Err(EndNotAfterStart)
      else if carId !in cars then Err(CarNotFound)
      else
        CarBookingsOverlap(bookings, carId, Some(id), start, end);
        if IsOverlap(start, end, CarBookings(bookings, carId, Some(id))) then Err(ScheduleConflict)
        else
          var prior := bookings[k];
          var total := CalculateCost(start, end, cars[carId].pricePerDay);
          var cars' := if IsConfirmed(prior.status) && prior.carId != carId
                       then SetCarStatus(SetCarStatus(cars, prior.carId, Available), carId, Rented)
                       else cars;
          Ok((bookings[k := AdminBooking(id, userId, carId, start, end, total, prior.status)], cars'))
  }

  /** Editing a booking keeps the schedule free of double bookings: the booking
      is checked against every other non-cancelled booking of its new car. */
  lemma UpdateBookingPreservesSchedule(bookings: seq<AdminBooking>, cars: map<CarId, Car>, id: BookingId,
                                       userId: UserId, carId: CarId, start: Time, end: Time)
    requires ScheduleConsistent(bookings) && UniqueIds(bookings)
    requires UpdateBooking(bookings, cars, id, userId, carId, start, end).Ok?
    ensures ScheduleConsistent(UpdateBooking(bookings, cars, id, userId, carId, start, end).value.0)
    ensures UniqueIds(UpdateBooking(bookings, cars, id, userId, carId, start, end).value.0)
  {
    var k := FindIndex(bookings, id).value;
    var r := UpdateBooking(bookings, cars, id, userId, carId, start, end).value.0;
    forall i, j | 0 <= i < |r| && 0 <= j < |r| && i != j
      && r[i].carId == r[j].carId && r[i].status != Cancelled && r[j].status != Cancelled
      ensures !Overlaps(r[i].startDate, r[i].endDate, r[j].startDate, r[j].endDate)
    {
      if i == k {
        assert Competes(bookings[j], carId, Some(id));
      } else if j == k {
        assert Competes(bookings[i], carId, Some(id));
      }
    }
  }

  /** The action flags shown beside each booking in the admin list. */
  datatype ListFlags = ListFlags(canChangeStatus: bool, canEditContent: bool, canDelete: bool)

  function RowFlags(s: AdminStatus): (f: ListFlags)
    ensures f.canDelete <==> s == Cancelled
    ensures f.canEditContent <==> s == Pending || s == ConfirmedUnpaid
    ensures f.canDelete ==> !f.canChangeStatus
    ensures f.canEditContent ==> f.canChangeStatus
    ensures !f.canChangeStatus <==> s == Completed || s == Cancelled
  {
    ListFlags(
      !(s == Completed || s == Cancelled),
      s == Pending || s == ConfirmedUnpaid,
      s == Cancelled)
  }
}

=== FILE: booking_validation.dfy ===
/** The booking admission middleware: date rules, vehicle checks, price
    computation with the tamper guard, the per-user abuse guard, and the two
    lightweight endpoints. */
module BookingValidation {

  import opened Wrappers
  import opened Time
  import opened Money
  import opened Seqs
  import opened Intervals
  import opened CarModel
  import opened BookingModel
  import opened Pricing

  const MaxAdvanceDays: int := 90
  const MaxRentalDays: int := 30
  const PendingWindowMs: int := 30 * MinuteMs
  const CancellationWindowMs: int := 7 * DayMs
  const MaxRecentPending: nat := 3
  const MaxRecentCancellations: nat := 5

  // ---------------------------------------------------------------- dates

  datatype DateError = InvalidDate | StartInPast | EndNotAfterStart | TooShort | TooFarAhead | TooLong

  datatype ValidatedDates = ValidatedDates(startDate: Time, endDate: Time, durationDays: int)

  /** `validateBookingDates` at instant `now`; `None` is a date that did not parse.
      Checks run in order and the first failure wins. */
  function ValidateBookingDates(start: Option<Time>, end: Option<Time>, now: Time): (r: Result<ValidatedDates, DateError>)
    ensures r == Err(InvalidDate) <==> start.None? || end.None?
    ensures r == Err(StartInPast) <==> start.Some? && end.Some? && start.value < StartOfDay(now)
    ensures r == Err(EndNotAfterStart) <==>
      start.Some? && end.Some? && start.value >= StartOfDay(now) && end.value <= start.value
    ensures r != Err(TooShort)
    ensures r == Err(TooFarAhead) <==>
      && start.Some? && end.Some? && StartOfDay(now) <= start.value < end.value
      && start.value - StartOfDay(now) > MaxAdvanceDays * DayMs
    ensures r.Ok? <==>
      && start.Some? && end.Some? && StartOfDay(now) <= start.value < end.value
      && start.value - StartOfDay(now) <= MaxAdvanceDays * DayMs
      && end.value - start.value <= MaxRentalDays * DayMs
    ensures r.Ok? ==>
      && r.value.startDate == start.value && r.value.endDate == end.value
      && 1 <= r.value.durationDays <= MaxRentalDays
      && (r.value.durationDays - 1) * DayMs < end.value - start.value <= r.value.durationDays * DayMs
  {
    var today := StartOfDay(now);
    if start.None? || end.None? then Err(InvalidDate)
    else if start.value < today then Err(StartInPast)
    else if end.value <= start.value then Err(EndNotAfterStart)
    else
      var diffDays := CeilDays(Abs(end.value - start.value));
      if diffDays < 1 then Err(TooShort)
      else
        var advanceDays := CeilDays(Abs(start.value - today));
        if advanceDays > MaxAdvanceDays then Err(TooFarAhead)
        else if diffDays > MaxRentalDays then Err(TooLong)
        else Ok(ValidatedDates(start.value, end.value, diffDays))
  }

  // ---------------------------------------------------------------- vehicle

  datatype AvailabilityError = CarNotFound | CarInactive | CarNotAvailable(status: CarStatus) | AlreadyBooked

  /** `checkCarAvailability`: the car exists, is active, is AVAILABLE, and no
      active booking other than `exclude` conflicts with the dates. */
  function CheckCarAvailability(cars: map<CarId, Car>, bookings: seq<Booking>, carId: CarId,
                                start: Time, end: Time, exclude: Option<BookingId>): (r: Result<Car, AvailabilityError>)
    ensures r == Err(CarNotFound) <==> carId !in cars
    ensures r == Err(CarInactive) <==> carId in cars && !cars[carId].isActive
    ensures r.Err? && r.error.CarNotAvailable? <==>
      carId in cars && cars[carId].isActive && cars[carId].status != Available
    ensures r.Ok? <==>
      carId in cars && IsAvailable(cars[carId]) && IsCarAvailable(bookings, carId, start, end, exclude)
    ensures r.Ok? ==> r.value == cars[carId]
  {
    if carId !in cars then Err(CarNotFound)
    else
      var car := cars[carId];
      if !car.isActive then Err(CarInactive)
      else if car.status != Available then Err(CarNotAvailable(car.status))
      else if !IsCarAvailable(bookings, carId, start, end, exclude) then Err(AlreadyBooked)
      else Ok(car)
  }

  // ---------------------------------------------------------------- price

  datatype PriceError = PriceMismatch(calculated: int, provided: real)

  /** The tamper guard: a client total is checked only when it is truthy
      (present and non-zero), and is refused when it is off by more than one unit. */
  function Tampered(clientTotal: Option<real>, totalPrice: int): (r: bool)
    ensures r <==> clientTotal.Some? && clientTotal.value != 0.0 && Distance(clientTotal.value, totalPrice as real) > 1.0
  {
    && clientTotal.Some? && clientTotal.value != 0.0
    && (clientTotal.value - totalPrice as real > 1.0 || totalPrice as real - clientTotal.value > 1.0)
  }

  /** `calculateAndValidatePrice`: the middleware's quote for the validated
      dates, or a mismatch when the client's total was tampered with. */
  function CalculateAndValidatePrice(car: Car, dates: ValidatedDates, insuranceFee: real, clientTotal: Option<real>): (r: Result<Breakdown, PriceError>)
    ensures var q := Quote(car.pricePerDay, car.deposit, dates.startDate, dates.endDate, dates.durationDays, insuranceFee);
      && (r.Ok? <==> !Tampered(clientTotal, q.totalPrice))
      && (r.Ok? ==> r.value == q)
      && (r.Err? ==> r.error == PriceMismatch(q.totalPrice, clientTotal.value))
  {
    var q := Quote(car.pricePerDay, car.deposit, dates.startDate, dates.endDate, dates.durationDays, insuranceFee);
    if clientTotal.Some? && clientTotal.value != 0.0 && Distance(clientTotal.value, q.totalPrice as real) > 1.0 then
      Err(PriceMismatch(q.totalPrice, clientTotal.value))
    else Ok(q)
  }

  /** A client that sends nothing, zero, or any total within one unit of the
      server's is accepted; one further away is refused. */
  lemma TamperGuardTolerance(clientTotal: real, totalPrice: int)
    ensures clientTotal == 0.0 ==> !Tampered(Some(clientTotal), totalPrice)
    ensures !Tampered(None, totalPrice)
    ensures totalPrice as real - 1.0 <= clientTotal <= totalPrice as real + 1.0 ==> !Tampered(Some(clientTotal), totalPrice)
    ensures clientTotal != 0.0 && (clientTotal > totalPrice as real + 1.0 || clientTotal < totalPrice as real - 1.0)
            ==> Tampered(Some(clientTotal), totalPrice)
  {
  }

  // ---------------------------------------------------------------- abuse guard

  datatype UserError = NotLoggedIn | TooManyPending | TooManyCancellations

  /** A booking of user `u` still awaiting payment and created in the last 30 minutes. */
  predicate RecentPending(b: Booking, u: UserId, now: Time)
  {
    b.userId == u && b.paymentStatus == Pending && b.createdAt >= now - PendingWindowMs
  }

  /** A booking of user `u` cancelled in the last 7 days. */
  predicate RecentCancellation(b: Booking, u: UserId, now: Time)
  {
    b.userId == u && b.status == Cancelled && b.cancelledAt.Some? && b.cancelledAt.value >= now - CancellationWindowMs
  }

  function PendingCount(bookings: seq<Booking>, u: UserId, now: Time): nat
  {
    Count(bookings, b => RecentPending(b, u, now))
  }

  function CancellationCount(bookings: seq<Booking>, u: UserId, now: Time): nat
  {
    Count(bookings, b => RecentCancellation(b, u, now))
  }

  /** `validateUserBooking`: a logged-in user with fewer than 3 recent unpaid
      bookings and fewer than 5 recent cancellations. */
  function ValidateUserBooking(user: Option<UserId>, bookings: seq<Booking>, now: Time): (r: Result<UserId, UserError>)
    ensures r == Err(NotLoggedIn) <==> user.None?
    ensures r == Err(TooManyPending) <==> user.Some? && PendingCount(bookings, user.value, now) >= MaxRecentPending
    ensures r == Err(TooManyCancellations) <==>
      user.Some? && PendingCount(bookings, user.value, now) < MaxRecentPending
      && CancellationCount(bookings, user.value, now) >= MaxRecentCancellations
    ensures r.Ok? ==> r.value == user.value
  {
    if user.None? then Err(NotLoggedIn)
    else if PendingCount(bookings, user.value, now) >= MaxRecentPending then Err(TooManyPending)
    else if CancellationCount(bookings, user.value, now) >= MaxRecentCancellations then Err(TooManyCancellations)
    else Ok(user.value)
  }

  /** The guard is monotone in the history: more bookings on record, before or
      after the existing ones, never turn a refusal into an acceptance. */
  lemma AbuseGuardMonotone(user: Option<UserId>, bookings: seq<Booking>, before: seq<Booking>, after: seq<Booking>, now: Time)
    requires ValidateUserBooking(user, bookings, now).Err?
    ensures ValidateUserBooking(user, before + bookings + after, now).Err?
  {
    if user.Some? {
      var u := user.value;
      var pp := b => RecentPending(b, u, now);
      var pc := b => RecentCancellation(b, u, now);
      CountAppend(before, bookings, pp);
      CountAppend(before + bookings, after, pp);
      CountAppend(before, bookings, pc);
      CountAppend(before + bookings, after, pc);
    }
  }

  /** Three unpaid bookings made in the last half hour block a fourth. */
  lemma ThreePendingBlock(u: UserId, b1: Booking, b2: Booking, b3: Booking, now: Time)
    requires RecentPending(b1, u, now) && RecentPending(b2, u, now) && RecentPending(b3, u, now)
    ensures ValidateUserBooking(Some(u), [b1, b2, b3], now) == Err(TooManyPending)
  {
    var p := b => RecentPending(b, u, now);
    assert [b1, b2, b3][1..] == [b2, b3];
    assert [b2, b3][1..] == [b3];
    assert Count([b3], p) == 1;
    assert Count([b2, b3], p) == 2;
    assert Count([b1, b2, b3], p) == 3;
  }

  // ---------------------------------------------------------------- the chain

  /** `insuranceFee = 0`: an absent insurance fee is none. */
  function InsuranceFeeOf(o: Option<real>): (fee: real)
    ensures o.None? ==> fee == 0.0
    ensures o.Some? ==> fee == o.value
  {
    match o
    case None => 0.0
    case Some(f) => f
  }

  /** The fields of a booking request the middleware reads; an absent insurance
      fee is `None`. */
  datatype BookingRequest = BookingRequest(
    user: Option<UserId>,
    carId: CarId,
    startDate: Option<Time>,
    endDate: Option<Time>,
    insuranceFee: Option<real>,
    clientTotal: Option<real>,
    exclude: Option<BookingId>)

  datatype BookingError =
    | DateRejected(dateError: DateError)
    | CarRejected(carError: AvailabilityError)
    | PriceRejected(priceError: PriceError)
    | UserRejected(userError: UserError)

  datatype Admission = Admission(dates: ValidatedDates, car: Car, pricing: Breakdown, user: UserId)

  /** `validateBooking`: dates, then the car, then the price, then the user;
      the first refusal is returned. */
  function ValidateBooking(req: BookingRequest, cars: map<CarId, Car>, bookings: seq<Booking>, now: Time): (r: Result<Admission, BookingError>)
    ensures ValidateBookingDates(req.startDate, req.endDate, now).Err? ==>
      r == Err(DateRejected(ValidateBookingDates(req.startDate, req.endDate, now).error))
    ensures r.Ok? <==>
      && ValidateBookingDates(req.startDate, req.endDate, now).Ok?
      && CheckCarAvailability(cars, bookings, req.carId, req.startDate.value, req.endDate.value, req.exclude).Ok?
      && CalculateAndValidatePrice(cars[req.carId], ValidateBookingDates(req.startDate, req.endDate, now).value,
                                   InsuranceFeeOf(req.insuranceFee), req.clientTotal).Ok?
      && ValidateUserBooking(req.user, bookings, now).Ok?
    ensures r.Err? && r.error.CarRejected? <==>
      && ValidateBookingDates(req.startDate, req.endDate, now).Ok?
      && CheckCarAvailability(cars, bookings, req.carId, req.startDate.value, req.endDate.value, req.exclude).Err?
    ensures r.Err? && r.error.PriceRejected? <==>
      && ValidateBookingDates(req.startDate, req.endDate, now).Ok?
      && CheckCarAvailability(cars, bookings, req.carId, req.startDate.value, req.endDate.value, req.exclude).Ok?
      && CalculateAndValidatePrice(cars[req.carId], ValidateBookingDates(req.startDate, req.endDate, now).value,
                                   InsuranceFeeOf(req.insuranceFee), req.clientTotal).Err?
    ensures r.Err? && r.error.UserRejected? <==>
      && ValidateBookingDates(req.startDate, req.endDate, now).Ok?
      && CheckCarAvailability(cars, bookings, req.carId, req.startDate.value, req.endDate.value, req.exclude).Ok?
      && CalculateAndValidatePrice(cars[req.carId], ValidateBookingDates(req.startDate, req.endDate, now).value,
                                   InsuranceFeeOf(req.insuranceFee), req.clientTotal).Ok?
      && ValidateUserBooking(req.user, bookings, now).Err?
    ensures r.Err? && r.error.CarRejected? ==>
      r.error.carError == CheckCarAvailability(cars, bookings, req.carId, req.startDate.value, req.endDate.value, req.exclude).error
    ensures r.Err? && r.error.PriceRejected? ==>
      r.error.priceError == CalculateAndValidatePrice(cars[req.carId], ValidateBookingDates(req.startDate, req.endDate, now).value,
                                                      InsuranceFeeOf(req.insuranceFee), req.clientTotal).error
    ensures r.Err? && r.error.UserRejected? ==> r.error.userError == ValidateUserBooking(req.user, bookings, now).error
    ensures r.Ok? ==>
      r.value == Admission(ValidateBookingDates(req.startDate, req.endDate, now).value, cars[req.carId],
                           CalculateAndValidatePrice(cars[req.carId], ValidateBookingDates(req.startDate, req.endDate, now).value,
                                                     InsuranceFeeOf(req.insuranceFee), req.clientTotal).value,
                           req.user.value)
  {
    match ValidateBookingDates(req.startDate, req.endDate, now)
    case Err(e) => Err(DateRejected(e))
    case Ok(dates) =>
      match CheckCarAvailability(cars, bookings, req.carId, dates.startDate, dates.endDate, req.exclude)
      case Err(e) => Err(CarRejected(e))
      case Ok(car) =>
        match CalculateAndValidatePrice(car, dates, InsuranceFeeOf(req.insuranceFee), req.clientTotal)
        case Err(e) => Err(PriceRejected(e))
        case Ok(pricing) =>
          match ValidateUserBooking(req.user, bookings, now)
          case Err(e) => Err(UserRejected(e))
          case Ok(u) => Ok(Admission(dates, car, pricing, u))
  }

  /** An admitted request names an active, AVAILABLE car with no active booking
      (other than the excluded one) overlapping its half-open period, lasts 1 to
      30 days, starts within 90 days of today, and is priced by the quote. */
  lemma AdmissionSound(req: BookingRequest, cars: map<CarId, Car>, bookings: seq<Booking>, now: Time)
    requires forall i :: 0 <= i < |bookings| ==> bookings[i].startDate < bookings[i].endDate
    requires ValidateBooking(req, cars, bookings, now).Ok?
    ensures var a := ValidateBooking(req, cars, bookings, now).value;
      && req.startDate.Some? && req.endDate.Some? && req.user.Some?
      && a.dates.startDate == req.startDate.value && a.dates.endDate == req.endDate.value && a.user == req.user.value
      && req.carId in cars && a.car == cars[req.carId] && IsAvailable(a.car)
      && 1 <= a.pricing.durationDays <= MaxRentalDays
      && StartOfDay(now) <= a.dates.startDate <= StartOfDay(now) + MaxAdvanceDays * DayMs
      && a.pricing == Quote(a.car.pricePerDay, a.car.deposit, a.dates.startDate, a.dates.endDate,
                            a.dates.durationDays, InsuranceFeeOf(req.insuranceFee))
      && forall i :: 0 <= i < |bookings| && bookings[i].carId == req.carId && IsActive(bookings[i])
                     && (req.exclude.Some? ==> bookings[i].id != req.exclude.value)
                     ==> !Overlaps(bookings[i].startDate, bookings[i].endDate, a.dates.startDate, a.dates.endDate)
  {
    var a := ValidateBooking(req, cars, bookings, now).value;
    IsCarAvailableHalfOpen(bookings, req.carId, a.dates.startDate, a.dates.endDate, req.exclude);
  }

  // ---------------------------------------------------------------- endpoints

  /** `quickAvailabilityCheck`: all three parameters given, the start not before
      today, the end after the start, the car bookable, and no conflict. */
  function QuickAvailabilityCheck(carId: Option<CarId>, start: Option<Time>, end: Option<Time>,
                                  cars: map<CarId, Car>, bookings: seq<Booking>, now: Time): (available: bool)
    ensures available <==>
      && carId.Some? && start.Some? && end.Some?
      && StartOfDay(now) <= start.value < end.value
      && carId.value in cars && IsAvailable(cars[carId.value])
      && IsCarAvailable(bookings, carId.value, start.value, end.value, None)
  {
    if carId.None? || start.None? || end.None? then false
    else if start.value < StartOfDay(now) || end.value <= start.value then false
    else if carId.value !in cars || !cars[carId.value].isActive || cars[carId.value].status != Available then false
    else IsCarAvailable(bookings, carId.value, start.value, end.value, None)
  }

  /** The quick check agrees with the middleware: it reports a car available
      exactly when the middleware's date rules up to the two caps and its vehicle
      step pass. */
  lemma QuickCheckMatchesMiddleware(carId: CarId, start: Time, end: Time, cars: map<CarId, Car>, bookings: seq<Booking>, now: Time)
    ensures QuickAvailabilityCheck(Some(carId), Some(start), Some(end), cars, bookings, now) <==>
      && ValidateBookingDates(Some(start), Some(end), now) !in {Err(InvalidDate), Err(StartInPast), Err(EndNotAfterStart)}
      && CheckCarAvailability(cars, bookings, carId, start, end, None).Ok?
  {
  }

  datatype EndpointError = EndpointCarNotFound

  /** `calculatePrice`: the quote for any two dates, duration taken as the
      absolute difference rounded up; the dates themselves are not validated. */
  function CalculatePrice(cars: map<CarId, Car>, carId: CarId, start: Time, end: Time, insuranceFee: Option<real>): (r: Result<Breakdown, EndpointError>)
    ensures r.Err? <==> carId !in cars
    ensures r.Ok? ==> r.value.durationDays >= 0 && r.value.deposit == cars[carId].deposit
    ensures r.Ok? ==> r.value.durationDays == CeilDays(Abs(end - start))
    ensures r.Ok? ==> (r.value.durationDays - 1) * DayMs < Abs(end - start) <= r.value.durationDays * DayMs
                      || (start == end && r.value.durationDays == 0)
    ensures r.Ok? ==> r.value == Quote(cars[carId].pricePerDay, cars[carId].deposit, start, end,
                                       r.value.durationDays, InsuranceFeeOf(insuranceFee))
  {
    if carId !in cars then Err(EndpointCarNotFound)
    else
      var car := cars[carId];
      Ok(Quote(car.pricePerDay, car.deposit, start, end, CeilDays(Abs(end - start)), InsuranceFeeOf(insuranceFee)))
  }

  /** For dates the middleware accepts, the price endpoint quotes the same
      breakdown, in particular the same total, as the middleware. */
  lemma EndpointMatchesMiddleware(cars: map<CarId, Car>, carId: CarId, start: Time, end: Time, now: Time, insuranceFee: Option<real>)
    requires carId in cars
    requires ValidateBookingDates(Some(start), Some(end), now).Ok?
    ensures var dates := ValidateBookingDates(Some(start), Some(end), now).value;
      var mw := CalculateAndValidatePrice(cars[carId], dates, InsuranceFeeOf(insuranceFee), None);
      mw.Ok? && CalculatePrice(cars, carId, start, end, insuranceFee) == Ok(mw.value)
  {
  }

  /** The endpoint does not order the dates: a reversed pair is billed the same
      number of days as the ordered pair, without a weekend surcharge (the
      weekend loop does not run), and equal dates bill no days, so the total is
      the rounded insurance fee. */
  lemma CalculatePriceReversedDates(cars: map<CarId, Car>, carId: CarId, start: Time, end: Time, insuranceFee: Option<real>)
    requires carId in cars && end < start
    ensures var q := CalculatePrice(cars, carId, start, end, insuranceFee).value;
      && q.durationDays == CalculatePrice(cars, carId, end, start, insuranceFee).value.durationDays >= 1
      && q.weekendSurcharge == 0
  {
    assert WeekendDays(start, end) == 0;
    RoundWhole(0);
  }

  lemma CalculatePriceSameDay(cars: map<CarId, Car>, carId: CarId, t: Time, insuranceFee: Option<real>)
    requires carId in cars
    ensures var q := CalculatePrice(cars, carId, t, t, insuranceFee).value;
      q.durationDays == 0 && q.basePrice == 0 && q.serviceFee == 0 && q.totalPrice == Round(InsuranceFeeOf(insuranceFee))
    ensures insuranceFee.None? ==> CalculatePrice(cars, carId, t, t, insuranceFee).value.totalPrice == 0
  {
    assert CeilDays(Abs(t - t)) == 0;
    assert WeekendDays(t, t) == 0;
    assert DiscountedBase(cars[carId].pricePerDay, 0, 0) == 0.0;
    RoundWhole(0);
  }
}

=== FILE: car.dfy ===
/** The vehicle entity: its enumerations, schema defaults, availability and rating. */
module CarModel {

  import opened Wrappers
  import opened Money

  type CarId = nat

  datatype CarStatus = Available | Rented | Maintenance | Inactive
  datatype Category = Economy | Comfort | Premium | Suv | Van | Luxury
  datatype Transmission = Automatic | Manual
  datatype FuelType = Petrol | Diesel | Electric | Hybrid

  /** The stored spelling of each enumeration value. */
  function CategoryName(c: Category): string
  {
    match c
    case Economy => "ECONOMY"
    case Comfort => "COMFORT"
    case Premium => "PREMIUM"
    case Suv => "SUV"
    case Van => "VAN"
    case Luxury => "LUXURY"
  }

  function TransmissionName(t: Transmission): string
  {
    match t
    case Automatic => "AUTOMATIC"
    case Manual => "MANUAL"
  }

  function FuelTypeName(f: FuelType): string
  {
    match f
    case Petrol => "PETROL"
    case Diesel => "DIESEL"
    case Electric => "ELECTRIC"
    case Hybrid => "HYBRID"
  }

  /** A car document. Brand, model, plate, location, media and owner are not
      read by the booking engine and are left out. */
  datatype Car = Car(
    id: CarId,
    category: Category,
    transmission: Transmission,
    fuelType: FuelType,
    seats: int,
    features: seq<string>,
    pricePerDay: real,
    mileageLimit: int,
    extraMileageCharge: real,
    deposit: real,
    status: CarStatus,
    isActive: bool,
    averageRating: real,
    totalReviews: nat)

  /** The fields a caller may supply when a car is created; `None` takes the schema default. */
  datatype CarDraft = CarDraft(
    id: CarId,
    pricePerDay: real,
    category: Option<Category>,
    transmission: Option<Transmission>,
    fuelType: Option<FuelType>,
    seats: Option<int>,
    features: Option<seq<string>>,
    mileageLimit: Option<int>,
    extraMileageCharge: Option<real>,
    deposit: Option<real>,
    status: Option<CarStatus>,
    isActive: Option<bool>)

  const DefaultMileageLimit: int := 200
  const DefaultExtraMileageCharge: real := 5000.0
  const DepositDays: real := 3.0

  function OrElse<T>(o: Option<T>, d: T): T
  {
    match o
    case Some(v) => v
    case None => d
  }

  /** The schema's `min`/`max` validators. */
  predicate SchemaValid(c: Car)
  {
    && 2 <= c.seats <= 16
    && c.pricePerDay >= 0.0
    && c.mileageLimit >= 0
    && c.extraMileageCharge >= 0.0
    && c.deposit >= 0.0
    && 0.0 <= c.averageRating <= 5.0
  }

  /** Creating a car stores every supplied field and fills every absent one
      with its schema default. */
  function WithDefaults(d: CarDraft): (c: Car)
    ensures c.id == d.id && c.pricePerDay == d.pricePerDay
    ensures d.category.Some? ==> c.category == d.category.value
    ensures d.category.None? ==> c.category == Economy
    ensures d.transmission.Some? ==> c.transmission == d.transmission.value
    ensures d.transmission.None? ==> c.transmission == Manual
    ensures d.fuelType.Some? ==> c.fuelType == d.fuelType.value
    ensures d.fuelType.None? ==> c.fuelType == Petrol
    ensures d.seats.Some? ==> c.seats == d.seats.value
    ensures d.seats.None? ==> c.seats == 5
    ensures d.features.Some? ==> c.features == d.features.value
    ensures d.features.None? ==> c.features == []
    ensures d.mileageLimit.Some? ==> c.mileageLimit == d.mileageLimit.value
    ensures d.mileageLimit.None? ==> c.mileageLimit == DefaultMileageLimit
    ensures d.extraMileageCharge.Some? ==> c.extraMileageCharge == d.extraMileageCharge.value
    ensures d.extraMileageCharge.None? ==> c.extraMileageCharge == DefaultExtraMileageCharge
    ensures d.deposit.Some? ==> c.deposit == d.deposit.value
    ensures d.deposit.None? ==> c.deposit == c.pricePerDay * DepositDays
    ensures d.status.Some? ==> c.status == d.status.value
    ensures d.status.None? ==> c.status == Available
    ensures d.isActive.Some? ==> c.isActive == d.isActive.value
    ensures d.isActive.None? ==> c.isActive
    ensures c.averageRating == 0.0 && c.totalReviews == 0
  {
    Car(
      d.id,
      OrElse(d.category, Economy),
      OrElse(d.transmission, Manual),
      OrElse(d.fuelType, Petrol),
      OrElse(d.seats, 5),
      OrElse(d.features, []),
      d.pricePerDay,
      OrElse(d.mileageLimit, DefaultMileageLimit),
      OrElse(d.extraMileageCharge, DefaultExtraMileageCharge),
      OrElse(d.deposit, d.pricePerDay * DepositDays),
      OrElse(d.status, Available),
      OrElse(d.isActive, true),
      0.0,
      0)
  }

  /** The draft that supplies every field of `c`. */
  function FullDraft(c: Car): CarDraft
  {
    CarDraft(c.id, c.pricePerDay, Some(c.category), Some(c.transmission), Some(c.fuelType),
      Some(c.seats), Some(c.features), Some(c.mileageLimit), Some(c.extraMileageCharge),
      Some(c.deposit), Some(c.status), Some(c.isActive))
  }

  /** A draft that supplies every field is stored as given: creating a car from
      the fields of an unrated car gives that car back. */
  lemma FullDraftStoredAsGiven(c: Car)
    requires c.averageRating == 0.0 && c.totalReviews == 0
    ensures WithDefaults(FullDraft(c)) == c
  {
  }

  /** The `isAvailable` virtual. */
  function IsAvailable(c: Car): (r: bool)
    ensures r <==> c.status == Available && c.isActive
  {
    c.status == Available && c.isActive
  }

  /** A car created with only an id and a non-negative daily rate passes the
      schema validators and can be booked at once. */
  lemma FreshCarIsBookable(id: CarId, rate: real)
    requires rate >= 0.0
    ensures var c := WithDefaults(CarDraft(id, rate, None, None, None, None, None, None, None, None, None, None));
      SchemaValid(c) && IsAvailable(c) && c.deposit == 3.0 * rate
  {
  }

  /** The mean of `count` ratings averaging `avg` once `x` joins them. */
  function RunningAverage(avg: real, count: nat, x: real): (r: real)
    ensures r * ((count + 1) as real) == avg * (count as real) + x
  {
    (avg * (count as real) + x) / ((count + 1) as real)
  }

  /** `updateRating`: one more review, average recomputed incrementally and then
      rounded to one decimal by the field setter. */
  function UpdateRating(c: Car, newRating: real): (c': Car)
    ensures c'.totalReviews == c.totalReviews + 1
    ensures c'.averageRating == Round1(RunningAverage(c.averageRating, c.totalReviews, newRating))
    ensures c' == c.(averageRating := c'.averageRating, totalReviews := c'.totalReviews)
  {
    c.(totalReviews := c.totalReviews + 1,
       averageRating := Round1(RunningAverage(c.averageRating, c.totalReviews, newRating)))
  }

  lemma ProductNonNegative(a: real, b: real)
    requires a >= 0.0 && b >= 0.0
    ensures a * b >= 0.0
  {
  }

  /** A weighted mean of values in [0, 5] stays in [0, 5]. */
  lemma RunningAverageWithin(avg: real, count: nat, x: real)
    requires 0.0 <= avg <= 5.0 && 0.0 <= x <= 5.0
    ensures 0.0 <= RunningAverage(avg, count, x) <= 5.0
  {
    var n := count as real;
    var r := RunningAverage(avg, count, x);
    ProductNonNegative(avg, n);
    ProductNonNegative(5.0 - avg, n);
    assert r * (n + 1.0) == avg * n + x;
    if r < 0.0 {
      ProductNonNegative(-r, n + 1.0);
      assert false;
    }
    if r > 5.0 {
      ProductNonNegative(r - 5.0, n + 1.0);
      assert false;
    }
  }

  /** Rating updates keep the stored average inside the schema's [0, 5] range. */
  lemma UpdateRatingKeepsRange(c: Car, newRating: real)
    requires 0.0 <= c.averageRating <= 5.0 && 0.0 <= newRating <= 5.0
    ensures 0.0 <= UpdateRating(c, newRating).averageRating <= 5.0
  {
    RunningAverageWithin(c.averageRating, c.totalReviews, newRating);
    Round1Within(RunningAverage(c.averageRating, c.totalReviews, newRating), 0, 5);
  }
}

=== FILE: intervals.dfy ===
/** The half-open conflict rule for rental periods. */
module Intervals {

  import opened Time

  /** `[s1, e1)` and `[s2, e2)` share an instant. A return on day X and a
      pick-up on day X do not conflict. */
  predicate Overlaps(s1: Time, e1: Time, s2: Time, e2: Time)
  {
    s1 < e2 && s2 < e1
  }

  lemma OverlapsSymmetric(s1: Time, e1: Time, s2: Time, e2: Time)
    ensures Overlaps(s1, e1, s2, e2) <==> Overlaps(s2, e2, s1, e1)
  {
  }

  /** Back-to-back periods never conflict. */
  lemma AdjacentDoNotOverlap(s1: Time, e1: Time, e2: Time)
    ensures !Overlaps(s1, e1, e1, e2)
    ensures !Overlaps(e1, e2, s1, e1)
  {
  }
}

=== FILE: money.dfy ===
/** Currency amounts are exact reals; the application's rounding is made explicit. */
module Money {

  /** `Math.round`: the nearest whole number, halves rounded up. */
  function Round(x: real): (r: int)
    ensures x - 0.5 < r as real <= x + 0.5
  {
    (x + 0.5).Floor
  }

  /** `Math.round(x * 10) / 10`: one decimal place, as the car rating setter does. */
  function Round1(x: real): (r: real)
    ensures x - 0.05 < r <= x + 0.05
    ensures (r * 10.0).Floor as real == r * 10.0
  {
    Round(x * 10.0) as real / 10.0
  }

  /** `Math.abs(x - y)`. */
  function Distance(x: real, y: real): (d: real)
    ensures d >= 0.0 && (d == x - y || d == y - x)
  {
    if x < y then y - x else x - y
  }

  lemma RoundMonotone(x: real, y: real)
    requires x <= y
    ensures Round(x) <= Round(y)
  {
  }

  lemma RoundWhole(k: int)
    ensures Round(k as real) == k
  {
  }

  /** Rounding to one decimal keeps a value inside whole-number bounds, so a
      rating in [lo, hi] is still in [lo, hi] after the setter rounds it. */
  lemma Round1Within(x: real, lo: int, hi: int)
    requires lo as real <= x <= hi as real
    ensures lo as real <= Round1(x) <= hi as real
  {
    RoundMonotone((lo * 10) as real, x * 10.0);
    RoundMonotone(x * 10.0, (hi * 10) as real);
    RoundWhole(lo * 10);
    RoundWhole(hi * 10);
  }

  /** A value already on one decimal is left alone, so rounding twice is rounding once. */
  lemma Round1Idempotent(x: real)
    ensures Round1(Round1(x)) == Round1(x)
  {
    var r := Round1(x);
    var k := (r * 10.0).Floor;
    assert r * 10.0 == k as real;
    RoundWhole(k);
  }
}

=== FILE: pricing.dfy ===
/** The price of a rental: daily rate, weekend surcharge, long-term discount,
    service fee and insurance, as the booking middleware computes it. */
module Pricing {

  import opened Time
  import opened Money

  const WeekendSurchargeRate: real := 0.15
  const WeeklyDiscountRate: real := 0.10
  const FortnightDiscountRate: real := 0.15
  const ServiceFeeRate: real := 0.10

  /** The itemised price. Every money field except the deposit is rounded half-up. */
  datatype Breakdown = Breakdown(
    durationDays: int,
    basePrice: int,
    weekendSurcharge: int,
    discount: int,
    serviceFee: int,
    insuranceFee: int,
    deposit: real,
    totalPrice: int)

  /** The days `d, d + 1 day, ...` strictly before `end` that fall on a
      Saturday or Sunday. */
  function WeekendDays(d: Time, end: Time): (n: nat)
    decreases end - d
  {
    if d >= end then 0
    else (if IsWeekend(d) then 1 else 0) + WeekendDays(d + DayMs, end)
  }

  /** The number of days the weekend loop visits starting at `d`. */
  function DaysVisited(d: Time, end: Time): (n: nat)
    decreases end - d
  {
    if d >= end then 0 else 1 + DaysVisited(d + DayMs, end)
  }

  /** The loop visits exactly `ceil((end - start) / day)` days. */
  lemma {:induction false} DaysVisitedIsDuration(d: Time, end: Time)
    ensures d < end ==> DaysVisited(d, end) == CeilDays(end - d)
    ensures d >= end ==> DaysVisited(d, end) == 0
    decreases end - d
  {
    if d < end {
      DaysVisitedIsDuration(d + DayMs, end);
      if d + DayMs < end {
        assert CeilDays(end - d) == CeilDays(end - (d + DayMs)) + 1;
      } else {
        assert CeilDays(end - d) == 1;
      }
    }
  }

  lemma {:induction false} WeekendDaysAtMostVisited(d: Time, end: Time)
    ensures WeekendDays(d, end) <= DaysVisited(d, end)
    decreases end - d
  {
    if d < end {
      WeekendDaysAtMostVisited(d + DayMs, end);
    }
  }

  /** At most every rental day is a weekend day. */
  lemma WeekendDaysAtMostDuration(start: Time, end: Time)
    requires start < end
    ensures WeekendDays(start, end) <= CeilDays(end - start)
  {
    WeekendDaysAtMostVisited(start, end);
    DaysVisitedIsDuration(start, end);
  }

  /** The weekend-counting loop: one step per calendar day from `start`
      while the day is before `end`. */
  method CountWeekendDays(start: Time, end: Time) returns (weekendDays: nat)
    ensures weekendDays == WeekendDays(start, end)
    ensures start < end ==> weekendDays <= CeilDays(end - start)
  {
    weekendDays := 0;
    var d := start;
    while d < end
      invariant weekendDays + WeekendDays(d, end) == WeekendDays(start, end)
      decreases end - d
    {
      if Weekday(d) == 0 || Weekday(d) == 6 {
        weekendDays := weekendDays + 1;
      }
      d := d + DayMs;
    }
    if start < end {
      WeekendDaysAtMostDuration(start, end);
    }
  }

  /** The long-term discount tier applied to the surcharged base. */
  function DiscountRate(durationDays: int): (r: real)
    ensures 0.0 <= r <= FortnightDiscountRate
  {
    if durationDays >= 14 then FortnightDiscountRate
    else if durationDays >= 7 then WeeklyDiscountRate
    else 0.0
  }

  /** 15% of the daily rate for each weekend day. */
  function Surcharge(rate: real, weekendDays: int): real
  {
    weekendDays as real * rate * WeekendSurchargeRate
  }

  /** Rate times days plus the weekend surcharge, before any discount. */
  function SurchargedBase(rate: real, durationDays: int, weekendDays: int): real
  {
    rate * durationDays as real + Surcharge(rate, weekendDays)
  }

  /** The base price after the discount, not yet rounded. */
  function DiscountedBase(rate: real, durationDays: int, weekendDays: int): real
  {
    var base := SurchargedBase(rate, durationDays, weekendDays);
    base - base * DiscountRate(durationDays)
  }

  /** The price of renting at `rate` over `[start, end)` billed as `durationDays` days. */
  function Quote(rate: real, deposit: real, start: Time, end: Time, durationDays: int, insuranceFee: real): (q: Breakdown)
    ensures q.durationDays == durationDays && q.deposit == deposit
    ensures var base := DiscountedBase(rate, durationDays, WeekendDays(start, end));
      base - 0.5 < q.basePrice as real <= base + 0.5
    ensures var surcharge := Surcharge(rate, WeekendDays(start, end));
      surcharge - 0.5 < q.weekendSurcharge as real <= surcharge + 0.5
    ensures var discount := SurchargedBase(rate, durationDays, WeekendDays(start, end)) * DiscountRate(durationDays);
      discount - 0.5 < q.discount as real <= discount + 0.5
    ensures insuranceFee - 0.5 < q.insuranceFee as real <= insuranceFee + 0.5
    ensures var base := DiscountedBase(rate, durationDays, WeekendDays(start, end));
      && base * ServiceFeeRate - 0.5 < q.serviceFee as real <= base * ServiceFeeRate + 0.5
      && base + q.serviceFee as real + insuranceFee - 0.5 < q.totalPrice as real
      && q.totalPrice as real <= base + q.serviceFee as real + insuranceFee + 0.5
  {
    var weekendDays := WeekendDays(start, end);
    var discount := SurchargedBase(rate, durationDays, weekendDays) * DiscountRate(durationDays);
    var base := DiscountedBase(rate, durationDays, weekendDays);
    var serviceFee := Round(base * ServiceFeeRate);
    var totalPrice := Round(base + serviceFee as real + insuranceFee);
    Breakdown(durationDays, Round(base), Round(Surcharge(rate, weekendDays)), Round(discount),
      serviceFee, Round(insuranceFee), deposit, totalPrice)
  }

  /** The total is within one unit of 110% of the discounted base plus insurance:
      the two roundings add at most half a unit each. */
  lemma TotalNearExact(rate: real, deposit: real, start: Time, end: Time, durationDays: int, insuranceFee: real)
    ensures var base := DiscountedBase(rate, durationDays, WeekendDays(start, end));
      var t := Quote(rate, deposit, start, end, durationDays, insuranceFee).totalPrice as real;
      base * 1.1 + insuranceFee - 1.0 < t <= base * 1.1 + insuranceFee + 1.0
  {
  }

  /** Tiers are exclusive: 15% from 14 days, otherwise 10% from 7 days, otherwise
      none, always taken from the surcharge-adjusted base. */
  lemma DiscountTiers(rate: real, durationDays: int, weekendDays: int)
    ensures var s := SurchargedBase(rate, durationDays, weekendDays);
      && (durationDays >= 14 ==> DiscountedBase(rate, durationDays, weekendDays) == s * 0.85)
      && (7 <= durationDays < 14 ==> DiscountedBase(rate, durationDays, weekendDays) == s * 0.90)
      && (durationDays < 7 ==> DiscountedBase(rate, durationDays, weekendDays) == s)
  {
  }

  /** The weekend surcharge adds at most 15% of the rate for each booked day. */
  lemma SurchargeBounded(rate: real, start: Time, end: Time)
    requires rate >= 0.0 && start < end
    ensures var days := CeilDays(end - start);
      rate * days as real <= SurchargedBase(rate, days, WeekendDays(start, end)) <= rate * days as real * 1.15
  {
    var days := CeilDays(end - start);
    var w := WeekendDays(start, end);
    WeekendDaysAtMostDuration(start, end);
    assert 0.0 <= w as real * rate <= days as real * rate by {
      ScaleMonotone(w as real, days as real, rate);
    }
  }

  lemma ScaleMonotone(a: real, b: real, c: real)
    requires 0.0 <= a <= b && c >= 0.0
    ensures 0.0 <= a * c <= b * c
  {
  }

  /** With a non-negative rate and insurance the total is never negative. */
  lemma TotalNonNegative(rate: real, deposit: real, start: Time, end: Time, insuranceFee: real)
    requires rate >= 0.0 && insuranceFee >= 0.0 && start < end
    ensures Quote(rate, deposit, start, end, CeilDays(end - start), insuranceFee).totalPrice >= 0
  {
    var days := CeilDays(end - start);
    SurchargeBounded(rate, start, end);
    var s := SurchargedBase(rate, days, WeekendDays(start, end));
    assert s >= 0.0;
    ScaleMonotone(DiscountRate(days), 1.0, s);
    TotalNearExact(rate, deposit, start, end, days, insuranceFee);
  }

  /** 2025-01-01T00:00Z (a Wednesday) and 2025-01-05T00:00Z (a Sunday). */
  const Jan1st2025: Time := 1735689600000
  const Jan5th2025: Time := 1736035200000

  /** Four days from Wednesday at 500000 per day contain one Saturday:
      2000000 + 75000 surcharge, no discount, 207500 service fee, total 2282500. */
  lemma WorkedExample()
    ensures var q := Quote(500000.0, 1500000.0, Jan1st2025, Jan5th2025, CeilDays(Jan5th2025 - Jan1st2025), 0.0);
      q.durationDays == 4 && q.weekendSurcharge == 75000 && q.basePrice == 2075000
      && q.serviceFee == 207500 && q.totalPrice == 2282500
  {
    assert CeilDays(Jan5th2025 - Jan1st2025) == 4 by {
      CeilDaysOfWhole(4);
    }
    assert Weekday(Jan1st2025) == 3;
    var d1 := Jan1st2025 + DayMs;
    var d2 := d1 + DayMs;
    var d3 := d2 + DayMs;
    assert Weekday(d1) == 4 && Weekday(d2) == 5 && Weekday(d3) == 6;
    assert d3 + DayMs == Jan5th2025;
    assert WeekendDays(Jan5th2025, Jan5th2025) == 0;
    assert WeekendDays(d3, Jan5th2025) == 1;
    assert WeekendDays(d2, Jan5th2025) == 1;
    assert WeekendDays(d1, Jan5th2025) == 1;
    assert WeekendDays(Jan1st2025, Jan5th2025) == 1;
  }
}

=== FILE: review.dfy ===
/** The review entity: the per-review mean of the star ratings, the edit window,
    and the car's rating aggregate recomputed from visible reviews. */
module ReviewModel {

  import opened Wrappers
  import opened Time
  import opened Money
  import opened Seqs
  import opened CarModel

  type ReviewId = nat

  datatype Review = Review(
    id: ReviewId,
    carId: CarId,
    overallRating: real,
    cleanliness: Option<real>,
    communication: Option<real>,
    accuracy: Option<real>,
    value: Option<real>,
    isEdited: bool,
    editedAt: Option<Time>,
    isHidden: bool,
    createdAt: Time)

  const EditWindowDays: real := 7.0

  /** The schema's 1..5 star bounds on the overall and every given sub-rating. */
  predicate StarsValid(r: Review)
  {
    && 1.0 <= r.overallRating <= 5.0
    && (r.cleanliness.Some? ==> 1.0 <= r.cleanliness.value <= 5.0)
    && (r.communication.Some? ==> 1.0 <= r.communication.value <= 5.0)
    && (r.accuracy.Some? ==> 1.0 <= r.accuracy.value <= 5.0)
    && (r.value.Some? ==> 1.0 <= r.value.value <= 5.0)
  }

  /** The given values, absent ones dropped (`filter(r => r != null)`). */
  function Present(s: seq<Option<real>>): (r: seq<real>)
    ensures |r| <= |s|
  {
    if |s| == 0 then []
    else (if s[0].Some? then [s[0].value] else []) + Present(s[1..])
  }

  function SubRatings(r: Review): seq<real>
  {
    Present([r.cleanliness, r.communication, r.accuracy, r.value])
  }

  function Sum(s: seq<real>): real
  {
    if |s| == 0 then 0.0 else s[0] + Sum(s[1..])
  }

  lemma {:induction false} SumWithin(s: seq<real>, lo: real, hi: real)
    requires forall i :: 0 <= i < |s| ==> lo <= s[i] <= hi
    ensures lo * |s| as real <= Sum(s) <= hi * |s| as real
  {
    if |s| > 0 {
      SumWithin(s[1..], lo, hi);
    }
  }

  /** The `averageRating` virtual: the overall rating alone when no sub-rating is
      given, otherwise the mean of the overall and the given sub-ratings rounded
      to one decimal. */
  function AverageRating(r: Review): (a: real)
    ensures |SubRatings(r)| == 0 ==> a == r.overallRating
    ensures |SubRatings(r)| > 0 ==>
      var mean := (r.overallRating + Sum(SubRatings(r))) / (|SubRatings(r)| + 1) as real;
      a == Round1(mean) && mean - 0.05 < a <= mean + 0.05
  {
    var ratings := SubRatings(r);
    if |ratings| == 0 then r.overallRating
    else Round1((r.overallRating + Sum(ratings)) / (|ratings| + 1) as real)
  }

  lemma {:induction false} PresentWithin(s: seq<Option<real>>, lo: real, hi: real)
    requires forall i :: 0 <= i < |s| && s[i].Some? ==> lo <= s[i].value <= hi
    ensures forall i :: 0 <= i < |Present(s)| ==> lo <= Present(s)[i] <= hi
  {
    if |s| > 0 {
      PresentWithin(s[1..], lo, hi);
    }
  }

  lemma MeanWithin(total: real, n: nat, lo: real, hi: real)
    requires n > 0 && lo * n as real <= total <= hi * n as real
    ensures lo <= total / n as real <= hi
  {
  }

  /** Star ratings within 1..5 give a review mean within 1..5. */
  lemma AverageRatingWithin(r: Review)
    requires StarsValid(r)
    ensures 1.0 <= AverageRating(r) <= 5.0
  {
    var ratings := SubRatings(r);
    if |ratings| > 0 {
      PresentWithin([r.cleanliness, r.communication, r.accuracy, r.value], 1.0, 5.0);
      SumWithin(ratings, 1.0, 5.0);
      var n := |ratings| + 1;
      MeanWithin(r.overallRating + Sum(ratings), n, 1.0, 5.0);
      Round1Within((r.overallRating + Sum(ratings)) / n as real, 1, 5);
    }
  }

  /** The `canEdit` virtual at instant `now`: never edited and at most seven days
      old, the age measured as a real number of days. */
  function CanEdit(r: Review, now: Time): (ok: bool)
    ensures ok <==> !r.isEdited && now - r.createdAt <= 7 * DayMs
  {
    if r.isEdited then false
    else
      var daysSinceCreation := (now - r.createdAt) as real / DayMs as real;
      assert daysSinceCreation <= EditWindowDays <==> now - r.createdAt <= 7 * DayMs;
      daysSinceCreation <= EditWindowDays
  }

  /** `markAsEdited` at instant `now`. */
  function MarkAsEdited(r: Review, now: Time): (r': Review)
    ensures r'.isEdited && r'.editedAt == Some(now)
    ensures r' == r.(isEdited := true, editedAt := r'.editedAt)
  {
    r.(isEdited := true, editedAt := Some(now))
  }

  /** A review can be edited at most once: afterwards the window is closed for good. */
  lemma EditedReviewIsFinal(r: Review, editTime: Time, later: Time)
    ensures !CanEdit(MarkAsEdited(r, editTime), later)
  {
  }

  // ---------------------------------------------------------------- car aggregate

  datatype RecomputeError = NoVisibleReviews

  predicate VisibleFor(r: Review, carId: CarId)
  {
    r.carId == carId && !r.isHidden
  }

  function SumOverall(s: seq<Review>): real
  {
    if |s| == 0 then 0.0 else s[0].overallRating + SumOverall(s[1..])
  }

  lemma {:induction false} SumOverallWithin(s: seq<Review>)
    requires forall i :: 0 <= i < |s| ==> 1.0 <= s[i].overallRating <= 5.0
    ensures |s| as real <= SumOverall(s) <= 5.0 * |s| as real
  {
    if |s| > 0 {
      SumOverallWithin(s[1..]);
    }
  }

  /** The non-hidden reviews of the car (`Review.find({ carId, isHidden: false })`). */
  function Visible(reviews: seq<Review>, carId: CarId): seq<Review>
  {
    Filter(reviews, x => VisibleFor(x, carId))
  }

  function VisibleCount(reviews: seq<Review>, carId: CarId): nat
  {
    Count(reviews, x => VisibleFor(x, carId))
  }

  lemma VisibleSize(reviews: seq<Review>, carId: CarId)
    ensures |Visible(reviews, carId)| == VisibleCount(reviews, carId)
  {
    FilterSize(reviews, x => VisibleFor(x, carId));
  }

  /** The mean overall rating of the visible reviews. */
  function Mean(visible: seq<Review>): (m: real)
    requires |visible| > 0
    ensures m * |visible| as real == SumOverall(visible)
  {
    SumOverall(visible) / |visible| as real
  }

  /** The aggregate the pre-save hook writes: `totalReviews` is the number of
      non-hidden reviews of the car and `averageRating` their mean overall rating
      (rounded to one decimal by the car's setter). With no such review the mean
      is undefined (0 / 0) and the car cannot be saved. */
  function RecomputeCarRating(reviews: seq<Review>, car: Car): (r: Result<Car, RecomputeError>)
    ensures r.Err? <==> VisibleCount(reviews, car.id) == 0
    ensures r.Ok? ==>
      && r.value.totalReviews == VisibleCount(reviews, car.id)
      && r.value.totalReviews == |Visible(reviews, car.id)|
      && r.value == car.(averageRating := r.value.averageRating, totalReviews := r.value.totalReviews)
      && r.value.averageRating == Round1(Mean(Visible(reviews, car.id)))
      && Mean(Visible(reviews, car.id)) - 0.05 < r.value.averageRating <= Mean(Visible(reviews, car.id)) + 0.05
  {
    var visible := Visible(reviews, car.id);
    VisibleSize(reviews, car.id);
    if |visible| == 0 then Err(NoVisibleReviews)
    else Ok(car.(averageRating := Round1(Mean(visible)), totalReviews := |visible|))
  }

  /** With every visible overall rating in 1..5, the recomputed car average is in 1..5. */
  lemma RecomputeWithin(reviews: seq<Review>, car: Car)
    requires forall i :: 0 <= i < |reviews| ==> 1.0 <= reviews[i].overallRating <= 5.0
    requires VisibleCount(reviews, car.id) > 0
    ensures RecomputeCarRating(reviews, car).Ok?
    ensures 1.0 <= RecomputeCarRating(reviews, car).value.averageRating <= 5.0
  {
    var visible := Visible(reviews, car.id);
    VisibleSize(reviews, car.id);
    VisibleWithin(reviews, car.id);
    RoundedMeanWithin(visible);
    assert RecomputeCarRating(reviews, car).value.averageRating == Round1(Mean(visible));
  }

  lemma VisibleWithin(reviews: seq<Review>, carId: CarId)
    requires forall i :: 0 <= i < |reviews| ==> 1.0 <= reviews[i].overallRating <= 5.0
    ensures forall i :: 0 <= i < |Visible(reviews, carId)| ==> 1.0 <= Visible(reviews, carId)[i].overallRating <= 5.0
  {
    var visible := Visible(reviews, carId);
    forall i | 0 <= i < |visible|
      ensures 1.0 <= visible[i].overallRating <= 5.0
    {
      var j :| 0 <= j < |reviews| && reviews[j] == visible[i];
    }
  }

  lemma RoundedMeanWithin(visible: seq<Review>)
    requires |visible| > 0
    requires forall i :: 0 <= i < |visible| ==> 1.0 <= visible[i].overallRating <= 5.0
    ensures 1.0 <= Round1(Mean(visible)) <= 5.0
  {
    SumOverallWithin(visible);
    MeanWithin(SumOverall(visible), |visible|, 1.0, 5.0);
    Round1Within(Mean(visible), 1, 5);
  }

  // ---------------------------------------------------------------- pre-save hook

  /** The reviews of `stored` with the in-memory `edited` in place of its stored copy. */
  function WithEdit(stored: seq<Review>, edited: Review): (r: seq<Review>)
    ensures |r| == |stored|
    ensures forall i :: 0 <= i < |stored| ==> r[i] == (if stored[i].id == edited.id then edited else stored[i])
  {
    seq(|stored|, i requires 0 <= i < |stored| => if stored[i].id == edited.id then edited else stored[i])
  }

  /** The pre-save hook as written. It runs when an existing review's overall
      rating changed, and recomputes the car from `stored`: the reviews as the
      database holds them before this save, in which the edited review still
      carries its previous rating. */
  function PreSaveHookAsWritten(stored: seq<Review>, edited: Review, ratingModified: bool, isNew: bool,
                                cars: map<CarId, Car>): (r: Result<map<CarId, Car>, RecomputeError>)
    ensures !ratingModified || isNew || edited.carId !in cars ==> r == Ok(cars)
    ensures r.Ok? ==> r.value.Keys == cars.Keys
    ensures ratingModified && !isNew && edited.carId in cars ==>
      (r.Ok? <==> RecomputeCarRating(stored, cars[edited.carId]).Ok?)
    ensures r.Ok? && ratingModified && !isNew && edited.carId in cars ==>
      RecomputeCarRating(stored, cars[edited.carId]) == Ok(r.value[edited.carId])
    ensures r.Ok? ==> forall k :: k in cars && k != edited.carId ==> r.value[k] == cars[k]
  {
    if !ratingModified || isNew || edited.carId !in cars then Ok(cars)
    else
      match RecomputeCarRating(stored, cars[edited.carId])
      case Err(e) => Err(e)
      case Ok(car) => Ok(cars[edited.carId := car])
  }

  /** The hook as evidently intended: the recomputation sees the review being saved. */
  function PreSaveHook(stored: seq<Review>, edited: Review, ratingModified: bool, isNew: bool,
                       cars: map<CarId, Car>): (r: Result<map<CarId, Car>, RecomputeError>)
    ensures !ratingModified || isNew || edited.carId !in cars ==> r == Ok(cars)
    ensures r.Ok? ==> r.value.Keys == cars.Keys
    ensures ratingModified && !isNew && edited.carId in cars ==>
      (r.Ok? <==> RecomputeCarRating(WithEdit(stored, edited), cars[edited.carId]).Ok?)
    ensures r.Ok? && ratingModified && !isNew && edited.carId in cars ==>
      RecomputeCarRating(WithEdit(stored, edited), cars[edited.carId]) == Ok(r.value[edited.carId])
    ensures r.Ok? ==> forall k :: k in cars && k != edited.carId ==> r.value[k] == cars[k]
  {
    if !ratingModified || isNew || edited.carId !in cars then Ok(cars)
    else
      match RecomputeCarRating(WithEdit(stored, edited), cars[edited.carId])
      case Err(e) => Err(e)
      case Ok(car) => Ok(cars[edited.carId := car])
  }

  /** The intended hook aggregates the new rating: when the edited review is
      stored and visible, it is among the reviews averaged, and no stale copy of
      it is. */
  lemma PreSaveHookSeesEdit(stored: seq<Review>, edited: Review)
    requires !edited.isHidden
    requires exists i :: 0 <= i < |stored| && stored[i].id == edited.id
    ensures edited in Visible(WithEdit(stored, edited), edited.carId)
    ensures forall x :: x in Visible(WithEdit(stored, edited), edited.carId) && x.id == edited.id ==> x == edited
  {
    var w := WithEdit(stored, edited);
    var i :| 0 <= i < |stored| && stored[i].id == edited.id;
    assert w[i] == edited;
    assert VisibleFor(w[i], edited.carId);
    forall x | x in Visible(w, edited.carId) && x.id == edited.id
      ensures x == edited
    {
      var j :| 0 <= j < |Visible(w, edited.carId)| && Visible(w, edited.carId)[j] == x;
    }
  }

  /** One visible review rated 2 is edited to 5: the hook as written leaves the
      car's average at 2, the intended hook moves it to 5. */
  lemma StaleRatingCounterexample(car: Car)
    ensures var before := Review(1, car.id, 2.0, None, None, None, None, false, None, false, 0);
      var after := before.(overallRating := 5.0);
      var cars := map[car.id := car];
      && PreSaveHookAsWritten([before], after, true, false, cars).Ok?
      && PreSaveHookAsWritten([before], after, true, false, cars).value[car.id].averageRating == 2.0
      && PreSaveHook([before], after, true, false, cars).Ok?
      && PreSaveHook([before], after, true, false, cars).value[car.id].averageRating == 5.0
  {
    var before := Review(1, car.id, 2.0, None, None, None, None, false, None, false, 0);
    var after := before.(overallRating := 5.0);
    assert Visible([before], car.id) == [before];
    assert VisibleCount([before], car.id) == 1;
    assert [before][1..] == [];
    assert SumOverall([before]) == 2.0;
    assert Mean([before]) == 2.0;
    RoundWhole(20);
    assert WithEdit([before], after) == [after];
    assert Visible([after], car.id) == [after];
    assert VisibleCount([after], car.id) == 1;
    assert [after][1..] == [];
    assert SumOverall([after]) == 5.0;
    assert Mean([after]) == 5.0;
    RoundWhole(50);
  }
}

=== FILE: search.dfy ===
/** Car search: the filter the search request builds, pagination, the optional
    date-availability post-filter, similar-car recommendations and autocomplete. */
module Search {

  import opened Wrappers
  import opened Time
  import opened Seqs
  import opened CarModel
  import opened BookingModel

  // ---------------------------------------------------------------- text

  function UpperChar(ch: char): (u: char)
    ensures 'a' <= ch <= 'z' ==> u as int == ch as int - 32
    ensures !('a' <= ch <= 'z') ==> u == ch
  {
    if 'a' <= ch <= 'z' then (ch as int - 32) as char else ch
  }

  /** `toUpperCase` on the ASCII letters. */
  function ToUpper(s: string): (r: string)
    ensures |r| == |s|
    ensures forall i :: 0 <= i < |s| ==> r[i] == UpperChar(s[i])
  {
    if |s| == 0 then "" else [UpperChar(s[0])] + ToUpper(s[1..])
  }

  /** Queries are matched case-insensitively against the stored upper-case names. */
  lemma LowerCaseQueriesMatch()
    ensures ToUpper("suv") == CategoryName(Suv)
    ensures ToUpper("Manual") == TransmissionName(Manual)
    ensures ToUpper("diesel") == FuelTypeName(Diesel)
  {
    UpperSuv();
    UpperManual();
    UpperDiesel();
  }

  lemma UpperSuv()
    ensures ToUpper("suv") == "SUV"
  {
  }

  lemma UpperManual()
    ensures ToUpper("Manual") == "MANUAL"
  {
  }

  lemma UpperDiesel()
    ensures ToUpper("diesel") == "DIESEL"
  {
  }

  /** A query-string value is applied only when truthy: present and non-empty. */
  predicate Given(o: Option<string>)
  {
    o.Some? && o.value != ""
  }

  // ---------------------------------------------------------------- the filter

  /** `features` arrives as one value or as a list. */
  datatype FeatureParam = Single(feature: string) | Many(features: seq<string>)

  function RequestedFeatures(p: FeatureParam): (r: seq<string>)
    ensures p.Single? ==> r == [p.feature]
    ensures p.Many? ==> r == p.features
  {
    match p
    case Single(f) => [f]
    case Many(fs) => fs
  }

  /** A single value is applied when non-empty; a list is always applied. */
  predicate FeaturesGiven(o: Option<FeatureParam>)
  {
    o.Some? && (o.value.Single? ==> o.value.feature != "")
  }

  /** The search request's parameters after `parseInt` / `parseFloat`; a numeric
      bound is `None` when its parameter was absent or empty, and `page` / `limit`
      are `None` when absent (the defaults then apply). `dates` holds the start
      and end when both were given. */
  datatype SearchQuery = SearchQuery(
    category: Option<string>,
    transmission: Option<string>,
    fuelType: Option<string>,
    minSeats: Option<int>,
    maxSeats: Option<int>,
    minPrice: Option<real>,
    maxPrice: Option<real>,
    features: Option<FeatureParam>,
    dates: Option<(Time, Time)>,
    page: Option<int>,
    limit: Option<int>)

  const DefaultPage: int := 1
  const DefaultLimit: int := 12

  /** The page requested, 1 when absent. */
  function PageNumber(q: SearchQuery): (n: int)
    ensures q.page.None? ==> n == DefaultPage
    ensures q.page.Some? ==> n == q.page.value
  {
    match q.page
    case None => DefaultPage
    case Some(p) => p
  }

  /** The page size requested, 12 when absent. */
  function PageSize(q: SearchQuery): (n: int)
    ensures q.limit.None? ==> n == DefaultLimit
    ensures q.limit.Some? ==> n == q.limit.value
  {
    match q.limit
    case None => DefaultLimit
    case Some(l) => l
  }

  /** `$all`: every requested feature is listed on the car (an empty list matches no car). */
  predicate HasAllFeatures(c: Car, requested: seq<string>)
  {
    |requested| > 0 && forall i :: 0 <= i < |requested| ==> requested[i] in c.features
  }

  /** The query document built by the search: active AVAILABLE cars, enum fields
      compared after upper-casing, inclusive seat and price bounds, all requested
      features. Each criterion applies only when its parameter was given. */
  function MatchesQuery(c: Car, q: SearchQuery): (r: bool)
    ensures r ==> IsAvailable(c)
    ensures r ==> (q.minSeats.Some? ==> q.minSeats.value <= c.seats) && (q.maxSeats.Some? ==> c.seats <= q.maxSeats.value)
    ensures r ==> (q.minPrice.Some? ==> q.minPrice.value <= c.pricePerDay) && (q.maxPrice.Some? ==> c.pricePerDay <= q.maxPrice.value)
  {
    && c.isActive && c.status == Available
    && (Given(q.category) ==> CategoryName(c.category) == ToUpper(q.category.value))
    && (Given(q.transmission) ==> TransmissionName(c.transmission) == ToUpper(q.transmission.value))
    && (Given(q.fuelType) ==> FuelTypeName(c.fuelType) == ToUpper(q.fuelType.value))
    && (q.minSeats.Some? ==> c.seats >= q.minSeats.value)
    && (q.maxSeats.Some? ==> c.seats <= q.maxSeats.value)
    && (q.minPrice.Some? ==> c.pricePerDay >= q.minPrice.value)
    && (q.maxPrice.Some? ==> c.pricePerDay <= q.maxPrice.value)
    && (FeaturesGiven(q.features) ==> HasAllFeatures(c, RequestedFeatures(q.features.value)))
  }

  /** With no criterion given, the search lists exactly the bookable cars. */
  lemma EmptyQueryListsBookableCars(c: Car, page: Option<int>, limit: Option<int>)
    ensures MatchesQuery(c, SearchQuery(None, None, None, None, None, None, None, None, None, page, limit))
            <==> IsAvailable(c)
  {
  }

  /** `q'` asks at least everything `q` asks: every criterion of `q` is kept,
      and its bounds are the same or tighter. */
  predicate Narrower(q': SearchQuery, q: SearchQuery)
  {
    && (Given(q.category) ==> q'.category == q.category)
    && (Given(q.transmission) ==> q'.transmission == q.transmission)
    && (Given(q.fuelType) ==> q'.fuelType == q.fuelType)
    && (q.minSeats.Some? ==> q'.minSeats.Some? && q'.minSeats.value >= q.minSeats.value)
    && (q.maxSeats.Some? ==> q'.maxSeats.Some? && q'.maxSeats.value <= q.maxSeats.value)
    && (q.minPrice.Some? ==> q'.minPrice.Some? && q'.minPrice.value >= q.minPrice.value)
    && (q.maxPrice.Some? ==> q'.maxPrice.Some? && q'.maxPrice.value <= q.maxPrice.value)
    && (FeaturesGiven(q.features) ==> q'.features == q.features)
  }

  /** A car a narrower query accepts is accepted by the wider one. */
  lemma NarrowerMatch(c: Car, q': SearchQuery, q: SearchQuery)
    requires Narrower(q', q)
    ensures MatchesQuery(c, q') ==> MatchesQuery(c, q)
  {
  }

  /** Adding or tightening criteria never lets more cars through. */
  lemma {:induction false} NarrowerQueryFewerMatches(cars: seq<Car>, q': SearchQuery, q: SearchQuery)
    requires Narrower(q', q)
    ensures MatchingCount(cars, q') <= MatchingCount(cars, q)
  {
    if |cars| > 0 {
      NarrowerQueryFewerMatches(cars[1..], q', q);
      NarrowerMatch(cars[0], q', q);
    }
  }

  // ---------------------------------------------------------------- pagination

  /** `Math.ceil(total / limit)` for a positive limit. */
  function CeilDiv(total: int, limit: int): (r: int)
    requires limit > 0
    ensures (r - 1) * limit < total <= r * limit
  {
    var q := (-total) / limit;
    assert q * limit <= -total < (q + 1) * limit;
    -q
  }

  function Skip(page: int, limit: int): int
  {
    (page - 1) * limit
  }

  datatype Pagination = Pagination(
    currentPage: int, totalPages: int, totalCars: nat, limit: int, hasNextPage: bool, hasPrevPage: bool)

  function Paginate(page: int, limit: int, totalCars: nat): (p: Pagination)
    requires limit > 0
    ensures p.currentPage == page && p.totalCars == totalCars && p.limit == limit
    ensures (p.totalPages - 1) * limit < totalCars <= p.totalPages * limit
    ensures p.hasPrevPage <==> page > 1
  {
    var totalPages := CeilDiv(totalCars, limit);
    Pagination(page, totalPages, totalCars, limit, page < totalPages, page > 1)
  }

  /** Multiplying by a positive number keeps the order. */
  lemma MulMonotone(a: int, b: int, c: int)
    requires a <= b && c > 0
    ensures a * c <= b * c
  {
  }

  /** There is a next page exactly when some matching car lies past the current one. */
  lemma HasNextPageMeansMoreCars(page: int, limit: int, totalCars: nat)
    requires page >= 1 && limit >= 1
    ensures Paginate(page, limit, totalCars).hasNextPage <==> page * limit < totalCars
  {
    var r := CeilDiv(totalCars, limit);
    if page < r {
      MulMonotone(page, r - 1, limit);
    }
    if page * limit < totalCars && page >= r {
      MulMonotone(r, page, limit);
    }
  }

  // ---------------------------------------------------------------- availability post-filter

  function AvailablePred(bookings: seq<Booking>, start: Time, end: Time): Car -> bool
  {
    (c: Car) => IsCarAvailable(bookings, c.id, start, end, None)
  }

  /** The cars of the page that `isCarAvailable` accepts for the dates, in page order. */
  function AvailableOnDates(cars: seq<Car>, bookings: seq<Booking>, start: Time, end: Time): seq<Car>
  {
    Filter(cars, AvailablePred(bookings, start, end))
  }

  /** The post-filter loop: one availability query per car of the page. */
  method FilterAvailable(cars: seq<Car>, bookings: seq<Booking>, start: Time, end: Time) returns (available: seq<Car>)
    ensures available == AvailableOnDates(cars, bookings, start, end)
    ensures forall i :: 0 <= i < |available| ==>
      available[i] in cars && IsCarAvailable(bookings, available[i].id, start, end, None)
    ensures forall i :: 0 <= i < |cars| && IsCarAvailable(bookings, cars[i].id, start, end, None) ==> cars[i] in available
  {
    var p := AvailablePred(bookings, start, end);
    available := [];
    var i := 0;
    while i < |cars|
      invariant 0 <= i <= |cars|
      invariant available == Filter(cars[..i], p)
    {
      FilterAppend(cars[..i], [cars[i]], p);
      assert cars[..i + 1] == cars[..i] + [cars[i]];
      if IsCarAvailable(bookings, cars[i].id, start, end, None) {
        available := available + [cars[i]];
      }
      i := i + 1;
    }
    assert cars[..|cars|] == cars;
  }

  // ---------------------------------------------------------------- the search

  datatype SearchResult = SearchResult(cars: seq<Car>, pagination: Pagination)

  function Matching(cars: seq<Car>, q: SearchQuery): (r: seq<Car>)
    ensures forall i :: 0 <= i < |r| ==> r[i] in cars && MatchesQuery(r[i], q)
  {
    Filter(cars, c => MatchesQuery(c, q))
  }

  function MatchingCount(cars: seq<Car>, q: SearchQuery): nat
  {
    Count(cars, c => MatchesQuery(c, q))
  }

  lemma MatchingSize(cars: seq<Car>, q: SearchQuery)
    ensures |Matching(cars, q)| == MatchingCount(cars, q)
  {
    FilterSize(cars, c => MatchesQuery(c, q));
  }

  /** The requested page of the matching cars, in store order. */
  function PageOf(matched: seq<Car>, page: int, limit: int): (r: seq<Car>)
    requires page >= 1 && limit >= 1
    ensures |r| <= limit
    ensures |r| == if Skip(page, limit) >= |matched| then 0 else Min(limit, |matched| - Skip(page, limit))
    ensures |r| > 0 ==> 0 <= Skip(page, limit) && Skip(page, limit) + |r| <= |matched|
    ensures |r| > 0 ==> forall i :: 0 <= i < |r| ==> r[i] == matched[Skip(page, limit) + i]
    ensures forall i :: 0 <= i < |r| ==> r[i] in matched
  {
    var skip := Skip(page, limit);
    MulMonotone(0, page - 1, limit);
    if skip >= |matched| then [] else Take(matched[skip..], limit)
  }

  /** Paging loses nothing: the `j`-th match is shown at position `j % limit`
      of page `j / limit + 1`. */
  lemma EveryMatchOnItsPage(matched: seq<Car>, j: int, limit: int)
    requires 0 <= j < |matched| && limit >= 1
    ensures var page := j / limit + 1;
      j % limit < |PageOf(matched, page, limit)| && PageOf(matched, page, limit)[j % limit] == matched[j]
  {
    var page := j / limit + 1;
    assert Skip(page, limit) == j - j % limit;
  }

  /** `searchCars` over the car collection in store order (sorting is left to the
      database and not modelled). */
  function SearchCars(cars: seq<Car>, bookings: seq<Booking>, q: SearchQuery): (r: SearchResult)
    requires PageNumber(q) >= 1 && PageSize(q) >= 1
    ensures |r.cars| <= PageSize(q)
    ensures forall i :: 0 <= i < |r.cars| ==> MatchesQuery(r.cars[i], q) && r.cars[i] in cars
    ensures q.dates.Some? ==> forall i :: 0 <= i < |r.cars| ==>
      IsCarAvailable(bookings, r.cars[i].id, q.dates.value.0, q.dates.value.1, None)
    ensures q.dates.None? ==> r.cars == PageOf(Matching(cars, q), PageNumber(q), PageSize(q))
    ensures q.dates.Some? ==>
      r.cars == AvailableOnDates(PageOf(Matching(cars, q), PageNumber(q), PageSize(q)), bookings, q.dates.value.0, q.dates.value.1)
    ensures r.pagination == Paginate(PageNumber(q), PageSize(q), MatchingCount(cars, q))
    ensures r.pagination.totalCars == MatchingCount(cars, q)
    ensures r.pagination.hasNextPage <==> PageNumber(q) * PageSize(q) < r.pagination.totalCars
  {
    var matched := Matching(cars, q);
    MatchingSize(cars, q);
    HasNextPageMeansMoreCars(PageNumber(q), PageSize(q), |matched|);
    var pageCars := PageOf(matched, PageNumber(q), PageSize(q));
    var shown := if q.dates.Some? then AvailableOnDates(pageCars, bookings, q.dates.value.0, q.dates.value.1) else pageCars;
    assert forall i :: 0 <= i < |shown| ==> shown[i] in pageCars;
    ElementsInTrans(shown, pageCars, matched);
    ShownMatches(cars, q, shown);
    SearchResult(shown, Paginate(PageNumber(q), PageSize(q), |matched|))
  }

  /** A search without page or limit shows the first twelve matches, as page 1. */
  lemma DefaultSearchFirstTwelve(cars: seq<Car>, bookings: seq<Booking>, q: SearchQuery)
    requires q.page.None? && q.limit.None? && q.dates.None?
    ensures var r := SearchCars(cars, bookings, q);
      && r.cars == Take(Matching(cars, q), 12)
      && r.pagination.currentPage == 1 && r.pagination.limit == 12 && !r.pagination.hasPrevPage
  {
  }

  lemma ElementsInTrans(a: seq<Car>, b: seq<Car>, c: seq<Car>)
    requires forall i :: 0 <= i < |a| ==> a[i] in b
    requires forall j :: 0 <= j < |b| ==> b[j] in c
    ensures forall i :: 0 <= i < |a| ==> a[i] in c
  {
    forall i | 0 <= i < |a|
      ensures a[i] in c
    {
      var j :| 0 <= j < |b| && b[j] == a[i];
    }
  }

  lemma ShownMatches(cars: seq<Car>, q: SearchQuery, shown: seq<Car>)
    requires forall i :: 0 <= i < |shown| ==> shown[i] in Matching(cars, q)
    ensures forall i :: 0 <= i < |shown| ==> MatchesQuery(shown[i], q) && shown[i] in cars
  {
    var matched := Matching(cars, q);
    forall i | 0 <= i < |shown|
      ensures MatchesQuery(shown[i], q) && shown[i] in cars
    {
      assert shown[i] in matched;
      var j :| 0 <= j < |matched| && matched[j] == shown[i];
    }
  }

  /** The date filter only thins the page: the counts and page flags are those of
      the same search without dates, and the cars kept are exactly the page's cars
      available on those dates, in page order. */
  lemma DateFilterOnlyThinsPage(cars: seq<Car>, bookings: seq<Booking>, q: SearchQuery, start: Time, end: Time)
    requires PageNumber(q) >= 1 && PageSize(q) >= 1
    ensures var withDates := SearchCars(cars, bookings, q.(dates := Some((start, end))));
      var without := SearchCars(cars, bookings, q.(dates := None));
      && withDates.pagination == without.pagination
      && withDates.cars == AvailableOnDates(without.cars, bookings, start, end)
  {
    var q1 := q.(dates := Some((start, end)));
    var q0 := q.(dates := None);
    assert forall c :: MatchesQuery(c, q1) == MatchesQuery(c, q0);
    assert Matching(cars, q1) == Matching(cars, q0) by {
      FilterSameAs(cars, c => MatchesQuery(c, q1), c => MatchesQuery(c, q0));
    }
  }

  lemma {:induction false} FilterSameAs<T>(s: seq<T>, p: T -> bool, p': T -> bool)
    requires forall x :: p(x) == p'(x)
    ensures Filter(s, p) == Filter(s, p')
  {
    if |s| > 0 {
      FilterSameAs(s[1..], p, p');
    }
  }

  // ---------------------------------------------------------------- similar cars

  /** Same category, within 70%..130% of the reference daily rate, bookable, and not the reference car. */
  predicate SimilarTo(reference: Car, c: Car)
  {
    && c.id != reference.id
    && c.isActive && c.status == Available
    && c.category == reference.category
    && reference.pricePerDay * 0.7 <= c.pricePerDay <= reference.pricePerDay * 1.3
  }

  /** `parseInt(limit) || 4`, as `.limit` reads it: a negative limit counts by its magnitude. */
  function SimilarLimit(limit: Option<int>): (n: nat)
    ensures limit.None? || limit.value == 0 ==> n == 4
    ensures limit.Some? && limit.value != 0 ==> n == Abs(limit.value) && n > 0
  {
    if limit.None? || limit.value == 0 then 4 else Abs(limit.value)
  }

  function FindCar(cars: seq<Car>, id: CarId): (r: Option<Car>)
    ensures r.None? <==> forall i :: 0 <= i < |cars| ==> cars[i].id != id
    ensures r.Some? ==> r.value in cars && r.value.id == id
  {
    if |cars| == 0 then None
    else if cars[0].id == id then Some(cars[0])
    else
      var rest := FindCar(cars[1..], id);
      assert forall i :: 1 <= i < |cars| ==> cars[i] == cars[1..][i - 1];
      rest
  }

  datatype LookupError = ReferenceNotFound

  /** Every car similar to the reference, in store order. */
  function SimilarPool(cars: seq<Car>, reference: Car): seq<Car>
  {
    Filter(cars, c => SimilarTo(reference, c))
  }

  /** `getSimilarCars` (ranking by rating is left to the database and not modelled). */
  function SimilarCars(cars: seq<Car>, carId: CarId, limit: Option<int>): (r: Result<seq<Car>, LookupError>)
    ensures r.Err? <==> forall i :: 0 <= i < |cars| ==> cars[i].id != carId
    ensures r.Ok? ==>
      && |r.value| <= SimilarLimit(limit)
      && |r.value| == Min(SimilarLimit(limit), |SimilarPool(cars, FindCar(cars, carId).value)|)
      && r.value == SimilarPool(cars, FindCar(cars, carId).value)[..|r.value|]
      && forall i :: 0 <= i < |r.value| ==>
           r.value[i] in cars && r.value[i].id != carId && SimilarTo(FindCar(cars, carId).value, r.value[i])
  {
    match FindCar(cars, carId)
    case None => Err(ReferenceNotFound)
    case Some(reference) =>
      var similar := SimilarPool(cars, reference);
      var shown := Take(similar, SimilarLimit(limit));
      assert forall i :: 0 <= i < |shown| ==> shown[i] == similar[i];
      Ok(shown)
  }

  /** When no more cars are similar than the limit allows, every similar car is
      recommended. */
  lemma SimilarCarsComplete(cars: seq<Car>, carId: CarId, limit: Option<int>, c: Car)
    requires SimilarCars(cars, carId, limit).Ok?
    requires |SimilarPool(cars, FindCar(cars, carId).value)| <= SimilarLimit(limit)
    requires c in cars && SimilarTo(FindCar(cars, carId).value, c)
    ensures c in SimilarCars(cars, carId, limit).value
  {
    var pool := SimilarPool(cars, FindCar(cars, carId).value);
    assert SimilarCars(cars, carId, limit).value == pool;
  }

  // ---------------------------------------------------------------- autocomplete

  const AutocompleteMinLength: nat := 2
  const AutocompleteLimit: nat := 5

  /** `autocomplete`: nothing for a missing or one-letter query, otherwise at most
      five active cars whose brand, model or city matches. The text match itself
      is the `matches` parameter. */
  function Autocomplete(query: Option<string>, cars: seq<Car>, matches: Car -> bool): (r: seq<Car>)
    ensures query.None? || |query.value| < AutocompleteMinLength ==> r == []
    ensures |r| <= AutocompleteLimit
    ensures query.Some? && |query.value| >= AutocompleteMinLength ==>
      |r| == Min(AutocompleteLimit, |Suggestable(cars, matches)|) && r == Suggestable(cars, matches)[..|r|]
    ensures forall i :: 0 <= i < |r| ==> r[i] in cars && r[i].isActive && matches(r[i])
  {
    if query.None? || |query.value| < AutocompleteMinLength then []
    else
      var found := Suggestable(cars, matches);
      var shown := Take(found, AutocompleteLimit);
      assert forall i :: 0 <= i < |shown| ==> shown[i] == found[i];
      shown
  }

  /** The active cars the text match accepts, in store order. */
  function Suggestable(cars: seq<Car>, matches: Car -> bool): seq<Car>
  {
    Filter(cars, (c: Car) => c.isActive && matches(c))
  }

  /** With a long enough query and at most five candidates, every active
      matching car is suggested. */
  lemma AutocompleteComplete(query: string, cars: seq<Car>, matches: Car -> bool, c: Car)
    requires |query| >= AutocompleteMinLength
    requires |Suggestable(cars, matches)| <= AutocompleteLimit
    requires c in cars && c.isActive && matches(c)
    ensures c in Autocomplete(Some(query), cars, matches)
  {
    assert Autocomplete(Some(query), cars, matches) == Suggestable(cars, matches);
  }
}

=== FILE: seqs.dfy ===
/** Sequence helpers used for the in-memory stores. */
module Seqs {

  /** The elements of `s` satisfying `p`, in their original order (`Array.prototype.filter`). */
  function Filter<T>(s: seq<T>, p: T -> bool): (r: seq<T>)
    ensures |r| <= |s|
    ensures forall i :: 0 <= i < |r| ==> r[i] in s && p(r[i])
    ensures forall i :: 0 <= i < |s| && p(s[i]) ==> s[i] in r
  {
    if |s| == 0 then []
    else (if p(s[0]) then [s[0]] else []) + Filter(s[1..], p)
  }

  lemma {:induction false} FilterAppend<T>(a: seq<T>, b: seq<T>, p: T -> bool)
    ensures Filter(a + b, p) == Filter(a, p) + Filter(b, p)
  {
    if |a| == 0 {
      assert a + b == b;
    } else {
      assert (a + b)[1..] == a[1..] + b;
      FilterAppend(a[1..], b, p);
    }
  }

  /** The number of elements satisfying `p` (a `countDocuments` over the store). */
  function Count<T>(s: seq<T>, p: T -> bool): (n: nat)
    ensures n <= |s|
    ensures n == 0 <==> forall i :: 0 <= i < |s| ==> !p(s[i])
  {
    if |s| == 0 then 0
    else (if p(s[0]) then 1 else 0) + Count(s[1..], p)
  }

  lemma {:induction false} CountAppend<T>(a: seq<T>, b: seq<T>, p: T -> bool)
    ensures Count(a + b, p) == Count(a, p) + Count(b, p)
  {
    if |a| == 0 {
      assert a + b == b;
    } else {
      assert (a + b)[1..] == a[1..] + b;
      CountAppend(a[1..], b, p);
    }
  }

  lemma {:induction false} FilterSize<T>(s: seq<T>, p: T -> bool)
    ensures |Filter(s, p)| == Count(s, p)
  {
    if |s| > 0 {
      FilterSize(s[1..], p);
    }
  }

  function Min(a: int, b: int): (m: int)
    ensures m <= a && m <= b && (m == a || m == b)
  {
    if a <= b then a else b
  }

  /** At most the first `n` elements (`.limit(n)`). */
  function Take<T>(s: seq<T>, n: nat): (r: seq<T>)
    ensures |r| <= n && |r| <= |s|
    ensures |r| == Min(n, |s|)
    ensures r == s[..|r|]
    ensures |s| <= n ==> r == s
  {
    if |s| <= n then s else s[..n]
  }
}

=== FILE: time.dfy ===
/** Timestamps are whole milliseconds since the Unix epoch, read in UTC. */
module Time {

  type Time = int

  const MinuteMs: int := 60 * 1000
  const HourMs: int := 60 * MinuteMs
  const DayMs: int := 24 * HourMs

  function Abs(x: int): (r: nat)
    ensures r == x || r == -x
  {
    if x < 0 then -x else x
  }

  /** `Math.ceil(ms / (1000 * 60 * 60 * 24))`: the least whole number of days
      covering `ms` milliseconds. */
  function CeilDays(ms: int): (r: int)
    ensures (r - 1) * DayMs < ms <= r * DayMs
  {
    -((-ms) / DayMs)
  }

  /** The first instant of the calendar day holding `t`. */
  function StartOfDay(t: Time): (r: Time)
    ensures r <= t < r + DayMs
    ensures r % DayMs == 0
  {
    t - t % DayMs
  }

  /** Day of the week, 0 = Sunday ... 6 = Saturday (`Date.prototype.getDay`).
      The epoch, 1970-01-01, was a Thursday. */
  function Weekday(t: Time): (r: int)
    ensures 0 <= r < 7
  {
    (t / DayMs + 4) % 7
  }

  predicate IsWeekend(t: Time)
  {
    Weekday(t) == 0 || Weekday(t) == 6
  }

  /** Stepping one day forward (`d.setDate(d.getDate() + 1)`) moves to the next weekday. */
  lemma WeekdayNext(t: Time)
    ensures Weekday(t + DayMs) == (Weekday(t) + 1) % 7
  {
    var q, m := t / DayMs, t % DayMs;
    assert t + DayMs == (q + 1) * DayMs + m;
    DivUnique(t + DayMs, q + 1, m);
    var k := q + 4;
    assert k == 7 * (k / 7) + k % 7;
    assert k + 1 == 7 * (k / 7) + (k % 7 + 1);
  }

  /** Division by a day is determined by quotient and in-range remainder. */
  lemma DivUnique(x: int, q: int, m: int)
    requires 0 <= m < DayMs && x == q * DayMs + m
    ensures x / DayMs == q
  {
  }

  /** A whole number of days is covered by exactly that many days. */
  lemma CeilDaysOfWhole(n: int)
    ensures CeilDays(n * DayMs) == n
  {
  }
}

=== FILE: wrappers.dfy ===
/** Failure-carrying values shared by every module of the model. */
module Wrappers {

  /** An optional value: `None` stands for a field or parameter that is absent
      (`undefined` / `null` in the application). */
  datatype Option<+T> = None | Some(value: T)

  /** The outcome of a step that either produces a value or rejects with a reason. */
  datatype Result<+T, +E> = Ok(value: T) | Err(error: E)
}
